=== FILE: README.md ===
# SwiftletUtilities core, modelled in Dafny

This project models the pure, non-UI core of the SwiftletUtilities package and proves properties of it:

- **`ObfuscationProvider`** (`obfuscation.dfy`):
  - an 88-symbol alphabet, and the "ASCII" code of a character, which is its position in that alphabet;
  - the character for a code;
  - `tumble`, which moves a character along the alphabet with wrap-around;
  - `obfuscate` and `deobfuscate`, which tumble every character by its own position;
  - the position-weighted `checksum` and `verify`.
- **`Array.update(with:)`** (`array_update.dfy`): the single-element update and the batch update.
  - Swift's `==` is a parameter `eq`, so the replacement of an equal element can be observed.
- **`String.truncated(limit:position:leader:)`** and the clean-up of `String.typeName(of:)` (`string_extensions.dfy`).
- **`String.titlecased()`** over ASCII text (`title_case.dfy`). The model treats "\r\n" as two characters; see "## Left out".
  - The regular-expression pass puts a space before every capital after the first character.
  - The capitalising pass upper-cases the first character and every character after a space.
- **`Color(fromHex:)` and `Color.toHex(withPrefix:includeAlpha:)`** with byte channels (`color_hex.dfy`).
  - Parsing trims whitespace and removes every `#`.
  - It then scans the leading hex digits, like `Scanner.scanHexInt64`.
  - It accepts the text only when the whole sanitised text has 6 or 8 characters.
  - Formatting writes two upper-case hex digits per channel.
- **`AppleHardwareType(fromModel:)`** (`apple_hardware.dfy`): the identifier table.
  - Each device-family block of the `switch` is its own function.
  - The blocks are tried in source order.
- `wrappers.dfy` holds the `Option` type that failable initialisers return.

## Model

| member | source | states |
|---|---|---|
| Obfuscation.CharacterSetSpelling | Sources/SwiftletUtilities/SharedCode/Utilities/ObfuscationProvider.swift:27 | the alphabet is the 88-character literal: digits, space, the letter pairs `AaBb…Zz`, then the 25 punctuation marks, in that order |
| Obfuscation.SymbolCodeFindsSymbols | Sources/SwiftletUtilities/SharedCode/Utilities/ObfuscationProvider.swift:33-45 | the closed-form code table finds exactly the characters of the alphabet, in both directions |
| Obfuscation.Ascii | Sources/SwiftletUtilities/SharedCode/Utilities/ObfuscationProvider.swift:33-45 | the code lies in -1..87; it is non-negative exactly when the argument is one alphabet symbol, and then the alphabet holds that symbol at the code |
| Obfuscation.AsciiScan | Sources/SwiftletUtilities/SharedCode/Utilities/ObfuscationProvider.swift:33-45 | the source's linear scan for the first equal one-symbol string returns the same code as `Ascii` |
| Obfuscation.CharacterFor | Sources/SwiftletUtilities/SharedCode/Utilities/ObfuscationProvider.swift:50-59 | one character for a code in 0..87 and "" otherwise; the code of a non-empty result is the argument |
| Obfuscation.CharacterForAscii | Sources/SwiftletUtilities/SharedCode/Utilities/ObfuscationProvider.swift:50-59 | the character for a symbol's code is that symbol again |
| Obfuscation.Tumble | Sources/SwiftletUtilities/SharedCode/Utilities/ObfuscationProvider.swift:67-97 | a string that is not one symbol comes back unchanged; a symbol becomes the symbol whose code is its code rotated by `position` modulo 88; the length never changes |
| Obfuscation.RotateOneMore | Sources/SwiftletUtilities/SharedCode/Utilities/ObfuscationProvider.swift:78-93 | rotating by one more place is one wrapping step of the loop body |
| Obfuscation.Advance | Sources/SwiftletUtilities/SharedCode/Utilities/ObfuscationProvider.swift:78-93 | the counting loop with wrap-around at either end stops at the modular rotation; a non-positive count takes no step |
| Obfuscation.TumbleStepwise | Sources/SwiftletUtilities/SharedCode/Utilities/ObfuscationProvider.swift:67-97 | `tumble` computed step by step, as the source does, equals the modular definition |
| Obfuscation.TumbleRoundTrip | Sources/SwiftletUtilities/SharedCode/Utilities/ObfuscationProvider.swift:67-97 | for every string and amount, tumbling left undoes tumbling right and tumbling right undoes tumbling left |
| Obfuscation.TumbleByNothing | Sources/SwiftletUtilities/SharedCode/Utilities/ObfuscationProvider.swift:78 | a tumble by zero or fewer places leaves every string unchanged |
| Obfuscation.TumbleWrapsAround | Sources/SwiftletUtilities/SharedCode/Utilities/ObfuscationProvider.swift:82-88 | right from the last symbol is the first one; left from the first is the last one |
| Obfuscation.Roll | Sources/SwiftletUtilities/SharedCode/Utilities/ObfuscationProvider.swift:131-135 | the output has one character per input character, and character `n` is the input's character `n` tumbled by `n` |
| Obfuscation.Obfuscate | Sources/SwiftletUtilities/SharedCode/Utilities/ObfuscationProvider.swift:128-138 | the length is kept; the first character is kept; characters outside the alphabet are kept; symbols stay symbols and non-symbols stay non-symbols |
| Obfuscation.Deobfuscate | Sources/SwiftletUtilities/SharedCode/Utilities/ObfuscationProvider.swift:143-153 | the same four facts for the left tumble |
| Obfuscation.ObfuscateRoundTrip | Sources/SwiftletUtilities/SharedCode/Utilities/ObfuscationProvider.swift:128-153 | deobfuscating an obfuscated text gives it back, and so does obfuscating a deobfuscated one, for every string |
| Obfuscation.Checksum | Sources/SwiftletUtilities/SharedCode/Utilities/ObfuscationProvider.swift:102-113 | the checksum lies between minus and 87 times the sum of the positions; it is non-negative when every character is a symbol |
| Obfuscation.ChecksumAfterEdit | Sources/SwiftletUtilities/SharedCode/Utilities/ObfuscationProvider.swift:106-110 | replacing the character at position `n` moves the checksum by exactly `n` times the difference of the two codes |
| Obfuscation.Verify | Sources/SwiftletUtilities/SharedCode/Utilities/ObfuscationProvider.swift:120-123 | a text passes exactly when its recomputed checksum equals the given one; a checksum outside the range a text of that length can reach never passes |
| Obfuscation.VerifyAfterRoundTrip | Sources/SwiftletUtilities/SharedCode/Utilities/ObfuscationProvider.swift:120-123 | a checksum taken before obfuscation verifies the deobfuscated text exactly when it verifies the original, so the original's own checksum always verifies it |
| Obfuscation.VerifyDetectsSingleEdit | Sources/SwiftletUtilities/SharedCode/Utilities/ObfuscationProvider.swift:120-123 | a single replacement after position 0 by a character of a different code always fails verification |
| Obfuscation.FirstCharacterUnchecked | Sources/SwiftletUtilities/SharedCode/Utilities/ObfuscationProvider.swift:109 | position 0 has weight zero, so any replacement of the first character still verifies |
| Obfuscation.Examples | Sources/SwiftletUtilities/SharedCode/Utilities/ObfuscationProvider.swift:33-59 | fixed codes ("0" is 0, " " is 10, "A" is 11); "", "AB" and "~" have no code; out-of-range codes give ""; "AB" obfuscates to "Ab" |
| ArrayUpdate.FirstMatch | Sources/SwiftletUtilities/SharedCode/Extensions/ArrayExtensions.swift:43-52 | the position where the scan stops: no earlier element is equal, and the element there is equal unless the scan ran off the end |
| ArrayUpdate.Update | Sources/SwiftletUtilities/SharedCode/Extensions/ArrayExtensions.swift:42-56 | the result contains the element; the first equal element is replaced in place; with no equal element, the new one is appended |
| ArrayUpdate.UpdatePresentKeepsLength | Sources/SwiftletUtilities/SharedCode/Extensions/ArrayExtensions.swift:42-56 | when some element is equal, the length is kept and every other position is untouched |
| ArrayUpdate.UpdateIdempotent | Sources/SwiftletUtilities/SharedCode/Extensions/ArrayExtensions.swift:42-56 | updating twice with an element equal to itself is the same as updating once |
| ArrayUpdate.UpdateEach | Sources/SwiftletUtilities/SharedCode/Extensions/ArrayExtensions.swift:84-86 | the loop of single updates only grows the array, by at most one per element; the last element applied is present; each original position keeps its element or holds one of the new ones |
| ArrayUpdate.UpdateAll | Sources/SwiftletUtilities/SharedCode/Extensions/ArrayExtensions.swift:75-87 | an empty array becomes exactly the new elements; otherwise the same bounds and contents facts as the loop |
| ArrayUpdate.UpdateEachAppend | Sources/SwiftletUtilities/SharedCode/Extensions/ArrayExtensions.swift:84-86 | the loop of single updates is a left fold: applying `xs` and then `ys` is applying `xs + ys` |
| ArrayUpdate.UpdateKeepsElements | Sources/SwiftletUtilities/SharedCode/Extensions/ArrayExtensions.swift:42-56 | with `==` as the equality, a single update never loses an element already present |
| ArrayUpdate.UpdateEachContains | Sources/SwiftletUtilities/SharedCode/Extensions/ArrayExtensions.swift:84-86 | with `==` as the equality, the loop keeps every old element and ends up holding every new one |
| ArrayUpdate.UpdateAllContains | Sources/SwiftletUtilities/SharedCode/Extensions/ArrayExtensions.swift:75-87 | with `==` as the equality, every element given to the batch update, and every element already there, is in the result, on the empty-array shortcut and the loop alike |
| ArrayUpdate.EmptyShortcutKeepsDuplicates | Sources/SwiftletUtilities/SharedCode/Extensions/ArrayExtensions.swift:78-81 | the empty-array shortcut keeps a repeated element twice, where the fold of updates would keep it once |
| ArrayUpdate.UpdateExistingExample | Sources/SwiftletUtilities/SharedCode/Extensions/ArrayExtensions.swift:42-56 | updating `["One", "Two", "Three"]` with "One" keeps three elements |
| StringExtensions.HalfUp | Sources/SwiftletUtilities/SharedCode/Extensions/StringExtensions.swift:234 | the larger half: the two halves add up to the whole and differ by at most one |
| StringExtensions.HalfDown | Sources/SwiftletUtilities/SharedCode/Extensions/StringExtensions.swift:236 | the smaller half: twice it is at most the whole, which is less than twice it plus two |
| StringExtensions.Truncated | Sources/SwiftletUtilities/SharedCode/Extensions/StringExtensions.swift:227-242 | a short enough string is returned unchanged; `Tail` is the first `limit` characters then the leader; `Head` is the leader then the last `limit` characters; `Middle` is exactly `limit` long, with the larger half of what the leader leaves at the front, the leader, then the smaller half from the end |
| StringExtensions.TruncatedDefaults | Sources/SwiftletUtilities/SharedCode/Extensions/StringExtensions.swift:227 | the default truncation cuts at the tail and appends "..." |
| StringExtensions.TailTruncationCanLengthen | Sources/SwiftletUtilities/SharedCode/Extensions/StringExtensions.swift:239-240 | tail truncation of "abcde" to 4 gives "abcd...", which is longer than its input |
| StringExtensions.MiddleTruncationFits | Sources/SwiftletUtilities/SharedCode/Extensions/StringExtensions.swift:233-238 | middle truncation never exceeds the limit |
| StringExtensions.ReplaceAll | Sources/SwiftletUtilities/SharedCode/Extensions/StringExtensions.swift:135-136 | the length is kept, every occurrence of the character is replaced and every other character is kept |
| StringExtensions.Components | Sources/SwiftletUtilities/SharedCode/Extensions/StringExtensions.swift:140 | at least one part; no part holds the separator; joining the parts with the separator gives the input back; there are two or more parts exactly when the separator occurs |
| StringExtensions.JoinEndsWithLast | Sources/SwiftletUtilities/SharedCode/Extensions/StringExtensions.swift:139-141 | of several joined parts, the last is a suffix of the join and directly follows a separator |
| StringExtensions.CleanTypeName | Sources/SwiftletUtilities/SharedCode/Extensions/StringExtensions.swift:134-144 | the result has no angle brackets and no dot; it is the suffix of the bracket-replaced name after its last dot, or the whole replaced name when there is no dot |
| StringExtensions.CleanTypeNameExample | Sources/SwiftletUtilities/SharedCode/Extensions/StringExtensions.swift:134-144 | "M.A<B>" is cleaned to "A(B)" |
| TitleCase.ToUpper | Sources/SwiftletUtilities/SharedCode/Extensions/TitleCase.swift:42 | the result is never lower-case; a lower-case letter becomes its capital and any other character is kept |
| TitleCase.Uppercased | Sources/SwiftletUtilities/SharedCode/Extensions/TitleCase.swift:33 | the length is kept and every character is upper-cased in place |
| TitleCase.SpaceCapitalsFrom | Sources/SwiftletUtilities/SharedCode/Extensions/TitleCase.swift:36-38 | one extra character per capital; every capital is preceded by a space; the first character written is a space before a leading capital, and otherwise the scanned text's first character |
| TitleCase.SpacedJoin | Sources/SwiftletUtilities/SharedCode/Extensions/TitleCase.swift:36-38 | two spaced texts joined stay spaced when the second does not start with a capital |
| TitleCase.SpacingKeepsText | Sources/SwiftletUtilities/SharedCode/Extensions/TitleCase.swift:36-38 | with the spaces dropped, the spacing pass gives back the text it scanned |
| TitleCase.NoCapitalsUnspaced | Sources/SwiftletUtilities/SharedCode/Extensions/TitleCase.swift:36-38 | text with no capitals comes through the spacing pass unchanged |
| TitleCase.SpaceCapitalsShift | Sources/SwiftletUtilities/SharedCode/Extensions/TitleCase.swift:36-38 | the spacing pass reads only the text from its start position on |
| TitleCase.SpaceCapitalsAppend | Sources/SwiftletUtilities/SharedCode/Extensions/TitleCase.swift:36-38 | the spacing pass over two texts joined is the two passes joined |
| TitleCase.CapitalWordSpaced | Sources/SwiftletUtilities/SharedCode/Extensions/TitleCase.swift:36-38 | a word whose only capital is its first letter gets exactly one space in front |
| TitleCase.CapitalizeFrom | Sources/SwiftletUtilities/SharedCode/Extensions/TitleCase.swift:40-44 | the character at the start and after every space is upper-cased, and every other character is kept |
| TitleCase.CapitalizeChangesOnlyCase | Sources/SwiftletUtilities/SharedCode/Extensions/TitleCase.swift:40-44 | the capitalising pass changes nothing but letter case |
| TitleCase.CapitalizeKeepsSpacing | Sources/SwiftletUtilities/SharedCode/Extensions/TitleCase.swift:40-44 | for a text whose capitals all follow a space, after the capitalising pass no word starts in lower case and every capital still follows a space |
| TitleCase.CapitalizeIsCapitalizedAs | Sources/SwiftletUtilities/SharedCode/Extensions/TitleCase.swift:40-44 | any text that upper-cases exactly the word starts of the input and keeps every other character is the capitalising pass's result |
| TitleCase.CapitalizedAppend | Sources/SwiftletUtilities/SharedCode/Extensions/TitleCase.swift:40-44 | capitalising is piecewise: a capitalised text followed by a capitalised text that starts with a space is the capitalised join |
| TitleCase.FirstWordCapitalized | Sources/SwiftletUtilities/SharedCode/Extensions/TitleCase.swift:40-44 | a first word without spaces has only its first letter upper-cased |
| TitleCase.SpacedWordCapitalized | Sources/SwiftletUtilities/SharedCode/Extensions/TitleCase.swift:40-44 | a word without spaces that follows a space has only its first letter upper-cased |
| TitleCase.Titlecased | Sources/SwiftletUtilities/SharedCode/Extensions/TitleCase.swift:31-46 | a string of at most one character is upper-cased; otherwise one space is added per capital after the first character; no word starts with a lower-case letter; every capital after the start follows a space; apart from spaces and case, the text is unchanged |
| TitleCase.CapitalsFromShrinks | Sources/SwiftletUtilities/SharedCode/Extensions/TitleCase.swift:37 | starting the capital count later never gives more capitals |
| TitleCase.SpacingPlacesCharacter | Sources/SwiftletUtilities/SharedCode/Extensions/TitleCase.swift:36-38 | the spacing pass writes each scanned character after the characters before it and one space per capital up to it, and a capital has a space just before it |
| TitleCase.TitlecasedPlacesCharacter | Sources/SwiftletUtilities/SharedCode/Extensions/TitleCase.swift:31-46 | character `i` of the input reappears, changed at most in case, at position `i` plus the number of capitals at positions 1 to `i`; a capital after the first character is kept as it is, with a space just before it |
| TitleCase.LowerTextUnspaced | Sources/SwiftletUtilities/SharedCode/Extensions/TitleCase.swift:36-38 | text with no capital after its first character comes through the spacing step unchanged |
| TitleCase.LowerTextOnlyCapitalized | Sources/SwiftletUtilities/SharedCode/Extensions/TitleCase.swift:31-46 | for text of two or more characters with no capital after the first, title-casing is just the capitalising pass |
| TitleCase.KeepsSpacesWithoutCapitals | Sources/SwiftletUtilities/SharedCode/Extensions/TitleCase.swift:31-46 | with no capital after the first character, the length is kept, every space stays in place, no other character becomes a space, and only letter case changes |
| TitleCase.TitlecasesDocSentence | Sources/SwiftletUtilities/SharedCode/Extensions/TitleCase.swift:29 | "we're having dinner in the garden" becomes "We're Having Dinner In The Garden" |
| TitleCase.TitlecasesDocCamelCase | Sources/SwiftletUtilities/SharedCode/Extensions/TitleCase.swift:30 | "TheSwiftProgrammingLanguage" becomes "The Swift Programming Language" |
| TitleCase.SingleCharacterUppercased | Sources/SwiftletUtilities/SharedCode/Extensions/TitleCase.swift:32-34 | "a" becomes "A" and "" stays "" |
| ColorHex.Trim | Sources/SwiftletUtilities/SharedCode/Extensions/ColorExtentions.swift:70 | the result is a middle slice of the input; everything cut off at either end is whitespace; the result neither starts nor ends with whitespace; text without whitespace at its ends is unchanged |
| ColorHex.RemoveHashes | Sources/SwiftletUtilities/SharedCode/Extensions/ColorExtentions.swift:71 | no `#` is left and the result is no longer than the input; a lone `#` becomes empty and any other single character is kept |
| ColorHex.RemoveHashesKeepsOthers | Sources/SwiftletUtilities/SharedCode/Extensions/ColorExtentions.swift:71 | every other character stays, as often as it occurred |
| ColorHex.RemoveHashesAppend | Sources/SwiftletUtilities/SharedCode/Extensions/ColorExtentions.swift:71 | removal over joined texts is the two removals joined, so the kept characters keep their order |
| ColorHex.NoHashesUnchanged | Sources/SwiftletUtilities/SharedCode/Extensions/ColorExtentions.swift:71 | text without a `#` is left as it is |
| ColorHex.HexRun | Sources/SwiftletUtilities/SharedCode/Extensions/ColorExtentions.swift:82 | the length of the run of hex digits the text starts with: all of them are digits and the character after them is not |
| ColorHex.ScanHex | Sources/SwiftletUtilities/SharedCode/Extensions/ColorExtentions.swift:82 | the scan succeeds exactly when the text starts with a hex digit; on all-digit text its value is the number the digits spell |
| ColorHex.ScanStopsAtNonDigit | Sources/SwiftletUtilities/SharedCode/Extensions/ColorExtentions.swift:82 | digits followed by a non-digit scan to the value of the digits alone |
| ColorHex.ParseHex | Sources/SwiftletUtilities/SharedCode/Extensions/ColorExtentions.swift:69-100 | a colour exactly when the sanitised text scans and has 6 or 8 characters; 6 gives red, green and blue from bits 16-23, 8-15 and 0-7 with a full alpha; 8 gives red, green, blue and alpha from bits 24-31, 16-23, 8-15 and 0-7 |
| ColorHex.HexByte | Sources/SwiftletUtilities/SharedCode/Extensions/ColorExtentions.swift:639-641 | two upper-case hex digits whose value is the channel |
| ColorHex.ToHex | Sources/SwiftletUtilities/SharedCode/Extensions/ColorExtentions.swift:621-643 | the length is the prefix plus 6 or 8 digits; it starts with `#` exactly when the prefix is asked for; fewer than three components give white |
| ColorHex.ParseAfterFormat | Sources/SwiftletUtilities/SharedCode/Extensions/ColorExtentions.swift:89-94 | formatting four channels with alpha, with or without the prefix, and parsing the text gives the colour back |
| ColorHex.ParseAfterFormatOpaque | Sources/SwiftletUtilities/SharedCode/Extensions/ColorExtentions.swift:84-88 | formatting three channels without alpha and parsing the text gives them back with a full alpha |
| ColorHex.FormatAfterParse | Sources/SwiftletUtilities/SharedCode/Extensions/ColorExtentions.swift:84-88 | six hex digits always parse, and the colour formats back, without prefix or alpha, to the same digits upper-cased |
| ColorHex.PairRoundTrip | Sources/SwiftletUtilities/SharedCode/Extensions/ColorExtentions.swift:641 | two hex digits read as a byte are written back as the same digits, upper-cased |
| ColorHex.RedRoundTrip | Tests/SwiftletUtilitiesTests/SwiftUtilitiesTests.swift:14-19 | "FF0000" parses to full red and formats back to "FF0000" |
| ColorHex.Sanitize | Sources/SwiftletUtilities/SharedCode/Extensions/ColorExtentions.swift:70-71 | no `#` is left and the result is no longer than the input |
| ColorHex.SanitizeKeepsOthers | Sources/SwiftletUtilities/SharedCode/Extensions/ColorExtentions.swift:70-71 | every character of the trimmed text other than `#` is kept, as often as it occurs |
| ColorHex.SanitizeUnchanged | Sources/SwiftletUtilities/SharedCode/Extensions/ColorExtentions.swift:70-71 | text with no `#` and no whitespace at either end is already sanitised |
| ColorHex.SanitizeExample | Sources/SwiftletUtilities/SharedCode/Extensions/ColorExtentions.swift:70-71 | surrounding whitespace goes, and so does every `#`, not only a leading one |
| ColorHex.EmptyRefused | Sources/SwiftletUtilities/SharedCode/Extensions/ColorExtentions.swift:82 | the empty string gives no colour |
| ColorHex.ShortRefused | Sources/SwiftletUtilities/SharedCode/Extensions/ColorExtentions.swift:95-97 | three digits such as "#FFF" give no colour, although they scan |
| ColorHex.WrongLengthRefused | Sources/SwiftletUtilities/SharedCode/Extensions/ColorExtentions.swift:84-97 | hex digits of any length but 6 and 8 give no colour, with or without the prefix |
| ColorHex.NoDigitsRefused | Sources/SwiftletUtilities/SharedCode/Extensions/ColorExtentions.swift:82 | "ZZZZZZ" has six characters but no leading hex digit, so it gives no colour |
| ColorHex.TrailingJunkAccepted | Sources/SwiftletUtilities/SharedCode/Extensions/ColorExtentions.swift:80-88 | "FFFFFZ" has six characters and scans as 0xFFFFF, so it gives a colour with red 0x0F |
| ColorHex.MissingComponentsGiveWhite | Sources/SwiftletUtilities/SharedCode/Extensions/ColorExtentions.swift:624-627 | no components, or only two, format as white |
| AppleHardware.IMacModel | Sources/SwiftletUtilities/SharedCode/Hardware/AppleHardwareType.swift:383-414 | the iMac cases name a device exactly for the iMac identifiers, and never a 2011 MacBook Air |
| AppleHardware.MacProModel | Sources/SwiftletUtilities/SharedCode/Hardware/AppleHardwareType.swift:415-420 | the same for the Mac Pro cases |
| AppleHardware.MacMiniModel | Sources/SwiftletUtilities/SharedCode/Hardware/AppleHardwareType.swift:421-434 | the same for the Mac mini cases |
| AppleHardware.MacBookProModel | Sources/SwiftletUtilities/SharedCode/Hardware/AppleHardwareType.swift:435-474 | the same for the MacBook Pro cases |
| AppleHardware.MacBookAirModel | Sources/SwiftletUtilities/SharedCode/Hardware/AppleHardwareType.swift:475-492 | the same for the MacBook Air cases |
| AppleHardware.MacBookModel | Sources/SwiftletUtilities/SharedCode/Hardware/AppleHardwareType.swift:493-504 | the same for the MacBook cases |
| AppleHardware.AccessoryModel | Sources/SwiftletUtilities/SharedCode/Hardware/AppleHardwareType.swift:505-516 | the same for the HomePod, Apple Watch and AirPods cases |
| AppleHardware.IPhoneModel | Sources/SwiftletUtilities/SharedCode/Hardware/AppleHardwareType.swift:517-552 | the same for the iPhone cases |
| AppleHardware.IPadModel | Sources/SwiftletUtilities/SharedCode/Hardware/AppleHardwareType.swift:553-582 | the same for the iPad cases |
| AppleHardware.IPodModel | Sources/SwiftletUtilities/SharedCode/Hardware/AppleHardwareType.swift:583-594 | the same for the iPod cases |
| AppleHardware.AppleTVModel | Sources/SwiftletUtilities/SharedCode/Hardware/AppleHardwareType.swift:595-602 | the same for the Apple TV cases |
| AppleHardware.FromModel | Sources/SwiftletUtilities/SharedCode/Hardware/AppleHardwareType.swift:381-606 | the result is a device exactly when some block lists the identifier, and `unknown` otherwise |
| AppleHardware.NeverMacBookAir2011 | Sources/SwiftletUtilities/SharedCode/Hardware/AppleHardwareType.swift:381-606 | no identifier leads to either 2011 MacBook Air, although both kinds are declared |
| AppleHardware.IPhoneXExample | Sources/SwiftletUtilities/SharedCode/Hardware/AppleHardwareType.swift:551-552 | both "iPhone10,3" and "iPhone10,6" name the iPhone X |
| AppleHardware.WatchSeries3Example | Sources/SwiftletUtilities/SharedCode/Hardware/AppleHardwareType.swift:513-514 | all four identifiers "Watch3,1" to "Watch3,4" name the Series 3 Apple Watch |
| AppleHardware.IMac15Example | Sources/SwiftletUtilities/SharedCode/Hardware/AppleHardwareType.swift:403-404 | "iMac15,1" names the 2014-2015 Retina 5K iMac |
| AppleHardware.IMac17Example | Sources/SwiftletUtilities/SharedCode/Hardware/AppleHardwareType.swift:403-404 | "iMac17,1" names the same iMac |
| AppleHardware.MacMiniInMacMiniBlock | Sources/SwiftletUtilities/SharedCode/Hardware/AppleHardwareType.swift:421-422 | "Macmini7,1" is not an iMac or Mac Pro identifier, and the Mac mini block maps it to the 2014 Mac mini |
| AppleHardware.MacMiniExample | Sources/SwiftletUtilities/SharedCode/Hardware/AppleHardwareType.swift:421-422 | the identifier "Macmini7,1" names the 2014 Mac mini |
| AppleHardware.CaseSensitiveExample | Sources/SwiftletUtilities/SharedCode/Hardware/AppleHardwareType.swift:421-422 | matching is exact: "macmini7,1" is not listed |

## Left out

- Floating point in the colour codec is left out.
  - `ColorHex.ParseHex` returns byte channels instead of dividing by 255 into a `Color`.
  - `ColorHex.ToHex` takes byte channels instead of scaling `CGFloat` components with `lroundf(x * 255)`.
  - The rounding between floats and bytes is therefore not modelled.
- ColorHex.ScanHex: `Scanner.scanHexInt64` is Foundation code. Two of its behaviours are not modelled:
  - skipping leading whitespace that follows a removed `#`;
  - skipping an optional `0x` or `0X` prefix.
  - Only the run of leading hex digits is read. With at most eight characters the 64-bit result cannot overflow.
- ColorHex.IsWhitespace: Foundation's `whitespacesAndNewlines` is listed code point by code point: U+0009 to U+000D, U+0085, the Zs space separators, U+2028 and U+2029. The list is fixed, so a space separator added by a later Unicode version would be missing.
- TitleCase.Titlecased: requires ASCII input.
  - Unicode upper-casing, `\S` over non-ASCII text, and the UTF-16 range of `NSRegularExpression` are not modelled.
  - Swift counts "\r\n" as one `Character`, while the range `NSMakeRange(1, self.count - 1)` counts UTF-16 units. So each "\r\n" ends the scanned range one unit early. The model scans to the end: it gives "Ab\r\n C D" for "ab\r\nCD", where the source leaves the final capital unspaced ("Ab\r\n CD").
- StringExtensions.Truncated: Swift traps on a negative `prefix` or `suffix` count, and the requires clause states exactly these preconditions.
  - `ceil` and `floor` of a `Float` half are computed as exact integer halves; they agree for every length a `Float` represents exactly.
- StringExtensions.CleanTypeName: models only the clean-up. Obtaining the type name with `Mirror(reflecting:)` is runtime reflection and is left out.
- Obfuscation.Ascii: text is a sequence of `char`, compared character by character. Two Swift `String` behaviours are therefore not modelled:
  - `char == character` is equality under canonical equivalence. In the source, the Kelvin sign U+212A has the code of "K" and the Greek question mark U+037E has the code of ";"; the model gives -1 for both.
  - `count` counts grapheme clusters, so "\r\n" is one character in the source and two in the model. Later positions shift: the source obfuscates "\r\nA" to "\r\na" (A moved by 1), the model to "\r\nB" (A moved by 2). The same shift affects `checksum` and the length check on the sanitised hex text.
- Obfuscation.Checksum: the sum `checksum += (value * n)` is Swift `Int` arithmetic, which traps on overflow. The model sums unbounded integers and never traps. With codes below 88 the sum can only pass 2^63 - 1 for texts of about 4.6e8 characters or more.
- `String`'s integer subscript, used by `Ascii`, `checksum`, `obfuscate` and `deobfuscate`, is modelled as sequence indexing.
- The alphabet literal has 88 characters.
- Out of scope:
  - the UI, font, HTML, image, device and network helpers elsewhere in the package;
  - the other `String` extensions;
  - the hardware type's descriptive properties.

=== FILE: apple_hardware.dfy ===
/**
  `AppleHardwareType(fromModel:)`: the table from Apple's model identifiers
  (such as `iPhone10,3`) to the kind of device they name. The `switch` is
  split here into its consecutive blocks, one per device family, tried in
  the order the source lists them; matching is exact and case-sensitive,
  and an identifier no block lists is `Unknown`.
 */
module AppleHardware {

  /** The device kinds, one per case of `AppleHardwareType`, in declaration order. */
  datatype HardwareType =
    Unknown
    | IPhone
    | IPhone3G
    | IPhone3GS
    | IPhone4
    | IPhone4S
    | IPhone5
    | IPhone5C
    | IPhone5S
    | IPhone6
    | IPhone6Plus
    | IPhone6S
    | IPhone6SPlus
    | IPhoneSE
    | IPhone7
    | IPhone7Plus
    | IPhone8
    | IPhone8Plus
    | IPhoneX
    | IPad
    | IPad2
    | IPadMini
    | IPad3
    | IPad4
    | IPadAir
    | IPadMini2
    | IPadMini3
    | IPadMini4
    | IPadAir2
    | IPadPro12In
    | IPadPro9In
    | IPad5thGen
    | IPadPro12In2ndGen
    | IPadPro10In
    | IPodTouch
    | IPodTouch2ndGen
    | IPodTouch3rdGen
    | IPodTouch4thGen
    | IPodTouch5thGen
    | IPodTouch6thGen
    | AppleTV2ndGen
    | AppleTV3rdGen
    | AppleTV4thGen
    | AppleTV4K
    | AirPods
    | AppleWatch
    | AppleWatchSeries1
    | AppleWatchSeries2
    | AppleWatchSeries3
    | HomePod
    | MacBookRetina12In2017
    | MacBookRetina12In2016
    | MacBookRetina12In2015
    | MacBook13In2010
    | MacBook13InLate2009
    | MacBook13In2009
    | MacBookAir13In2015To2017
    | MacBookAir11In2015
    | MacBookAir13In2013To2014
    | MacBookAir11In2013To2014
    | MacBookAir13In2012
    | MacBookAir11In2012
    | MacBookAir13In2011
    | MacBookAir11In2011
    | MacBookAir13In2010
    | MacBookAir11In2010
    | MacBookAir2009
    | MacBookPro15In2017
    | MacBookPro13In2017
    | MacBookPro15In2016
    | MacBookPro13In2016
    | MacBookProRetina15In2015
    | MacBookProRetina13In2015
    | MacBookProRetina15In2013To2014
    | MacBookProRetina13In2013To2014
    | MacBookProRetina13In2012To2013
    | MacBookProRetina15In2012
    | MacBookPro15In2012
    | MacBookPro13In2012
    | MacBookPro17In2011
    | MacBookPro15In2011
    | MacBookPro13In2011
    | MacBookPro17In2010
    | MacBookPro13In2010
    | MacBookPro17In2009
    | MacBookPro15In2009
    | MacBookPro13In2009
    | MacMini2006
    | MacMini2007
    | MacMini2009
    | MacMini2010
    | MacMini2011
    | MacMini2012
    | MacMini2014
    | MacPro2013
    | MacPro2010To2012
    | MacPro2009
    | IMac21In2017
    | IMacRetina4K21In2017
    | IMacRetina5K27In2017
    | IMac21In2015
    | IMacRetina4K21In2015
    | IMacRetina5K27In2014To2015
    | IMac21In2014
    | IMac21In2013
    | IMac27In2013
    | IMac21In2012
    | IMac27In2012
    | IMac21In2011
    | IMac27In2011
    | IMac21In2009To2010
    | IMac27In2009To2010
    | IMac20InOr24In2009

  /** The identifiers of the iMac block. */
  function IMacIdentifiers(): set<string> {
    {
      "iMac9,1", "iMac11,3", "iMac11,2", "iMac12,2", "iMac12,1", "iMac13,2", "iMac13,1",
      "iMac14,2", "iMac14,1", "iMac14,3", "iMac15,1", "iMac17,1", "iMac16,2", "iMac16,1",
      "iMac18,3", "iMac18,2", "iMac18,1"
    }
  }

  /** The iMac block of the `switch`: `Unknown` when none of its cases matches. */
  function IMacModel(model: string): (r: HardwareType)
    ensures r != Unknown <==> model in IMacIdentifiers()
    ensures r != MacBookAir13In2011 && r != MacBookAir11In2011
  {
    match model
    case "iMac9,1" => IMac20InOr24In2009
    case "iMac11,3" => IMac27In2009To2010
    case "iMac11,2" => IMac21In2009To2010
    case "iMac12,2" => IMac27In2011
    case "iMac12,1" => IMac21In2011
    case "iMac13,2" => IMac27In2012
    case "iMac13,1" => IMac21In2012
    case "iMac14,2" => IMac27In2013
    case "iMac14,1" => IMac21In2013
    case "iMac14,3" => IMac21In2014
    case "iMac15,1" | "iMac17,1" => IMacRetina5K27In2014To2015
    case "iMac16,2" => IMacRetina4K21In2015
    case "iMac16,1" => IMac21In2015
    case "iMac18,3" => IMacRetina5K27In2017
    case "iMac18,2" => IMacRetina4K21In2017
    case "iMac18,1" => IMac21In2017
    case _ => Unknown
  }

  /** The identifiers of the Mac Pro block. */
  function MacProIdentifiers(): set<string> {
    {
      "MacPro4,1", "MacPro5,1", "MacPro6,1"
    }
  }

  /** The Mac Pro block of the `switch`: `Unknown` when none of its cases matches. */
  function MacProModel(model: string): (r: HardwareType)
    ensures r != Unknown <==> model in MacProIdentifiers()
    ensures r != MacBookAir13In2011 && r != MacBookAir11In2011
  {
    match model
    case "MacPro4,1" => MacPro2009
    case "MacPro5,1" => MacPro2010To2012
    case "MacPro6,1" => MacPro2013
    case _ => Unknown
  }

  /** The identifiers of the Mac mini block. */
  function MacMiniIdentifiers(): set<string> {
    {
      "Macmini7,1", "Macmini6,1", "Macmini6,2", "Macmini5,1", "Macmini5,2", "Macmini5,3",
      "Macmini4,1", "Macmini3,1", "Macmini2,1", "Macmini1,1"
    }
  }

  /** The Mac mini block of the `switch`: `Unknown` when none of its cases matches. */
  function MacMiniModel(model: string): (r: HardwareType)
    ensures r != Unknown <==> model in MacMiniIdentifiers()
    ensures r != MacBookAir13In2011 && r != MacBookAir11In2011
  {
    match model
    case "Macmini7,1" => MacMini2014
    case "Macmini6,1" | "Macmini6,2" => MacMini2012
    case "Macmini5,1" | "Macmini5,2" | "Macmini5,3" => MacMini2011
    case "Macmini4,1" => MacMini2010
    case "Macmini3,1" => MacMini2009
    case "Macmini2,1" => MacMini2007
    case "Macmini1,1" => MacMini2006
    case _ => Unknown
  }

  /** The identifiers of the MacBook Pro block. */
  function MacBookProIdentifiers(): set<string> {
    {
      "MacBookPro5,5", "MacBookPro5,3", "MacBookPro5,2", "MacBookPro7,1", "MacBookPro6,1",
      "MacBookPro6,2", "MacBookPro8,1", "MacBookPro8,2", "MacBookPro8,3", "MacBookPro9,2",
      "MacBookPro9,1", "MacBookPro10,1", "MacBookPro10,2", "MacBookPro11,2", "MacBookPro11,3",
      "MacBookPro11,1", "MacBookPro11,4", "MacBookPro11,5", "MacBookPro12,1", "MacBookPro13,2",
      "MacBookPro13,1", "MacBookPro13,3", "MacBookPro14,2", "MacBookPro14,1", "MacBookPro14,3"
    }
  }

  /** The MacBook Pro block of the `switch`: `Unknown` when none of its cases matches. */
  function MacBookProModel(model: string): (r: HardwareType)
    ensures r != Unknown <==> model in MacBookProIdentifiers()
    ensures r != MacBookAir13In2011 && r != MacBookAir11In2011
  {
    match model
    case "MacBookPro5,5" => MacBookPro13In2009
    case "MacBookPro5,3" => MacBookPro15In2009
    case "MacBookPro5,2" => MacBookPro17In2009
    case "MacBookPro7,1" => MacBookPro13In2010
    case "MacBookPro6,1" | "MacBookPro6,2" => MacBookPro17In2010
    case "MacBookPro8,1" => MacBookPro13In2011
    case "MacBookPro8,2" => MacBookPro15In2011
    case "MacBookPro8,3" => MacBookPro17In2011
    case "MacBookPro9,2" => MacBookPro13In2012
    case "MacBookPro9,1" => MacBookPro15In2012
    case "MacBookPro10,1" => MacBookProRetina15In2012
    case "MacBookPro10,2" => MacBookProRetina13In2012To2013
    case "MacBookPro11,2" | "MacBookPro11,3" => MacBookProRetina15In2013To2014
    case "MacBookPro11,1" => MacBookProRetina13In2013To2014
    case "MacBookPro11,4" | "MacBookPro11,5" => MacBookProRetina15In2015
    case "MacBookPro12,1" => MacBookProRetina13In2015
    case "MacBookPro13,2" | "MacBookPro13,1" => MacBookPro13In2016
    case "MacBookPro13,3" => MacBookPro15In2016
    case "MacBookPro14,2" | "MacBookPro14,1" => MacBookPro13In2017
    case "MacBookPro14,3" => MacBookPro15In2017
    case _ => Unknown
  }

  /** The identifiers of the MacBook Air block. */
  function MacBookAirIdentifiers(): set<string> {
    {
      "MacBookAir2,1", "MacBookAir3,1", "MacBookAir3,2", "MacBookAir5,1", "MacBookAir5,2",
      "MacBookAir6,1", "MacBookAir6,2", "MacBookAir7,1", "MacBookAir7,2"
    }
  }

  /** The MacBook Air block of the `switch`: `Unknown` when none of its cases matches. */
  function MacBookAirModel(model: string): (r: HardwareType)
    ensures r != Unknown <==> model in MacBookAirIdentifiers()
    ensures r != MacBookAir13In2011 && r != MacBookAir11In2011
  {
    match model
    case "MacBookAir2,1" => MacBookAir2009
    case "MacBookAir3,1" => MacBookAir11In2010
    case "MacBookAir3,2" => MacBookAir13In2010
    case "MacBookAir5,1" => MacBookAir11In2012
    case "MacBookAir5,2" => MacBookAir13In2012
    case "MacBookAir6,1" => MacBookAir11In2013To2014
    case "MacBookAir6,2" => MacBookAir13In2013To2014
    case "MacBookAir7,1" => MacBookAir11In2015
    case "MacBookAir7,2" => MacBookAir13In2015To2017
    case _ => Unknown
  }

  /** The identifiers of the MacBook block. */
  function MacBookIdentifiers(): set<string> {
    {
      "MacBook10,1", "MacBook9,1", "MacBook8,1", "MacBook7,1", "MacBook6,1", "MacBook5,2"
    }
  }

  /** The MacBook block of the `switch`: `Unknown` when none of its cases matches. */
  function MacBookModel(model: string): (r: HardwareType)
    ensures r != Unknown <==> model in MacBookIdentifiers()
    ensures r != MacBookAir13In2011 && r != MacBookAir11In2011
  {
    match model
    case "MacBook10,1" => MacBookRetina12In2017
    case "MacBook9,1" => MacBookRetina12In2016
    case "MacBook8,1" => MacBookRetina12In2015
    case "MacBook7,1" => MacBook13In2010
    case "MacBook6,1" => MacBook13InLate2009
    case "MacBook5,2" => MacBook13In2009
    case _ => Unknown
  }

  /** The identifiers of the HomePod, Apple Watch and AirPods block. */
  function AccessoryIdentifiers(): set<string> {
    {
      "HomePod1,1", "Watch1,1", "Watch1,2", "Watch2,6", "Watch2,7", "Watch2,3", "Watch2,4",
      "Watch3,1", "Watch3,2", "Watch3,3", "Watch3,4", "AirPods1,1"
    }
  }

  /** The HomePod, Apple Watch and AirPods block of the `switch`: `Unknown` when none of its cases matches. */
  function AccessoryModel(model: string): (r: HardwareType)
    ensures r != Unknown <==> model in AccessoryIdentifiers()
    ensures r != MacBookAir13In2011 && r != MacBookAir11In2011
  {
    match model
    case "HomePod1,1" => HomePod
    case "Watch1,1" | "Watch1,2" => AppleWatch
    case "Watch2,6" | "Watch2,7" => AppleWatchSeries1
    case "Watch2,3" | "Watch2,4" => AppleWatchSeries2
    case "Watch3,1" | "Watch3,2" | "Watch3,3" | "Watch3,4" => AppleWatchSeries3
    case "AirPods1,1" => AirPods
    case _ => Unknown
  }

  /** The identifiers of the iPhone block. */
  function IPhoneIdentifiers(): set<string> {
    {
      "iPhone1,1", "iPhone1,2", "iPhone2,1", "iPhone3,1", "iPhone3,3", "iPhone4,1",
      "iPhone5,1", "iPhone5,2", "iPhone5,3", "iPhone5,4", "iPhone6,1", "iPhone6,2",
      "iPhone7,1", "iPhone7,2", "iPhone8,1", "iPhone8,2", "iPhone8,4", "iPhone9,1",
      "iPhone9,3", "iPhone9,2", "iPhone9,4", "iPhone10,1", "iPhone10,4", "iPhone10,2",
      "iPhone10,5", "iPhone10,3", "iPhone10,6"
    }
  }

  /** The iPhone block of the `switch`: `Unknown` when none of its cases matches. */
  function IPhoneModel(model: string): (r: HardwareType)
    ensures r != Unknown <==> model in IPhoneIdentifiers()
    ensures r != MacBookAir13In2011 && r != MacBookAir11In2011
  {
    match model
    case "iPhone1,1" => IPhone
    case "iPhone1,2" => IPhone3G
    case "iPhone2,1" => IPhone3GS
    case "iPhone3,1" | "iPhone3,3" => IPhone4
    case "iPhone4,1" => IPhone4S
    case "iPhone5,1" | "iPhone5,2" => IPhone5
    case "iPhone5,3" | "iPhone5,4" => IPhone5C
    case "iPhone6,1" | "iPhone6,2" => IPhone5S
    case "iPhone7,1" => IPhone6Plus
    case "iPhone7,2" => IPhone6
    case "iPhone8,1" => IPhone6S
    case "iPhone8,2" => IPhone6SPlus
    case "iPhone8,4" => IPhoneSE
    case "iPhone9,1" | "iPhone9,3" => IPhone7
    case "iPhone9,2" | "iPhone9,4" => IPhone7Plus
    case "iPhone10,1" | "iPhone10,4" => IPhone8
    case "iPhone10,2" | "iPhone10,5" => IPhone8Plus
    case "iPhone10,3" | "iPhone10,6" => IPhoneX
    case _ => Unknown
  }

  /** The identifiers of the iPad block. */
  function IPadIdentifiers(): set<string> {
    {
      "iPad1,1", "iPad2,1", "iPad2,2", "iPad2,3", "iPad2,4", "iPad2,5", "iPad2,6", "iPad2,7",
      "iPad3,1", "iPad3,2", "iPad3,3", "iPad3,4", "iPad3,5", "iPad3,6", "iPad4,1", "iPad4,2",
      "iPad4,3", "iPad4,4", "iPad4,5", "iPad4,6", "iPad4,7", "iPad4,8", "iPad4,9", "iPad5,1",
      "iPad5,2", "iPad5,3", "iPad5,4", "iPad6,3", "iPad6,4", "iPad6,7", "iPad6,8", "iPad6,11",
      "iPad6,12", "iPad7,1", "iPad7,2", "iPad7,3", "iPad7,4"
    }
  }

  /** The iPad block of the `switch`: `Unknown` when none of its cases matches. */
  function IPadModel(model: string): (r: HardwareType)
    ensures r != Unknown <==> model in IPadIdentifiers()
    ensures r != MacBookAir13In2011 && r != MacBookAir11In2011
  {
    match model
    case "iPad1,1" => IPad
    case "iPad2,1" | "iPad2,2" | "iPad2,3" | "iPad2,4" => IPad2
    case "iPad2,5" | "iPad2,6" | "iPad2,7" => IPadMini
    case "iPad3,1" | "iPad3,2" | "iPad3,3" => IPad3
    case "iPad3,4" | "iPad3,5" | "iPad3,6" => IPad4
    case "iPad4,1" | "iPad4,2" | "iPad4,3" => IPadAir
    case "iPad4,4" | "iPad4,5" | "iPad4,6" => IPadMini2
    case "iPad4,7" | "iPad4,8" | "iPad4,9" => IPadMini3
    case "iPad5,1" | "iPad5,2" => IPadMini4
    case "iPad5,3" | "iPad5,4" => IPadAir2
    case "iPad6,3" | "iPad6,4" => IPadPro12In
    case "iPad6,7" | "iPad6,8" => IPadPro9In
    case "iPad6,11" | "iPad6,12" => IPad5thGen
    case "iPad7,1" | "iPad7,2" => IPadPro12In2ndGen
    case "iPad7,3" | "iPad7,4" => IPadPro10In
    case _ => Unknown
  }

  /** The identifiers of the iPod touch block. */
  function IPodIdentifiers(): set<string> {
    {
      "iPod1,1", "iPod2,1", "iPod3,1", "iPod4,1", "iPod5,1", "iPod7,1"
    }
  }

  /** The iPod touch block of the `switch`: `Unknown` when none of its cases matches. */
  function IPodModel(model: string): (r: HardwareType)
    ensures r != Unknown <==> model in IPodIdentifiers()
    ensures r != MacBookAir13In2011 && r != MacBookAir11In2011
  {
    match model
    case "iPod1,1" => IPodTouch
    case "iPod2,1" => IPodTouch2ndGen
    case "iPod3,1" => IPodTouch3rdGen
    case "iPod4,1" => IPodTouch4thGen
    case "iPod5,1" => IPodTouch5thGen
    case "iPod7,1" => IPodTouch6thGen
    case _ => Unknown
  }

  /** The identifiers of the Apple TV block. */
  function AppleTVIdentifiers(): set<string> {
    {
      "AppleTV2,1", "AppleTV3,1", "AppleTV3,2", "AppleTV5,3", "AppleTV6,2"
    }
  }

  /** The Apple TV block of the `switch`: `Unknown` when none of its cases matches. */
  function AppleTVModel(model: string): (r: HardwareType)
    ensures r != Unknown <==> model in AppleTVIdentifiers()
    ensures r != MacBookAir13In2011 && r != MacBookAir11In2011
  {
    match model
    case "AppleTV2,1" => AppleTV2ndGen
    case "AppleTV3,1" | "AppleTV3,2" => AppleTV3rdGen
    case "AppleTV5,3" => AppleTV4thGen
    case "AppleTV6,2" => AppleTV4K
    case _ => Unknown
  }

  /** Every identifier the table lists. */
  function Identifiers(): set<string> {
    IMacIdentifiers() + MacProIdentifiers() + MacMiniIdentifiers() + MacBookProIdentifiers()
    + MacBookAirIdentifiers() + MacBookIdentifiers() + AccessoryIdentifiers() + IPhoneIdentifiers()
    + IPadIdentifiers() + IPodIdentifiers() + AppleTVIdentifiers()
  }

  /**
    `init(fromModel:)`: the first block, in source order, whose cases list
    `model`, and `Unknown` when none does.
   */
  function FromModel(model: string): (r: HardwareType)
    ensures r != Unknown <==> model in Identifiers()
  {
    if IMacModel(model) != Unknown then IMacModel(model)
    else if MacProModel(model) != Unknown then MacProModel(model)
    else if MacMiniModel(model) != Unknown then MacMiniModel(model)
    else if MacBookProModel(model) != Unknown then MacBookProModel(model)
    else if MacBookAirModel(model) != Unknown then MacBookAirModel(model)
    else if MacBookModel(model) != Unknown then MacBookModel(model)
    else if AccessoryModel(model) != Unknown then AccessoryModel(model)
    else if IPhoneModel(model) != Unknown then IPhoneModel(model)
    else if IPadModel(model) != Unknown then IPadModel(model)
    else if IPodModel(model) != Unknown then IPodModel(model)
    else AppleTVModel(model)
  }

  /** The two 2011 MacBook Air kinds are declared but no identifier leads to them. */
  lemma NeverMacBookAir2011(model: string)
    ensures FromModel(model) != MacBookAir13In2011 && FromModel(model) != MacBookAir11In2011
  {
  }

  /** The desktop Mac blocks, which come first in the `switch`, do not list the iPhone X. */
  lemma IPhoneXNotADesktopMac(model: string)
    requires model == "iPhone10,3" || model == "iPhone10,6"
    ensures IMacModel(model) == MacProModel(model) == MacMiniModel(model) == Unknown
  {
  }

  /** Neither do the MacBook Pro and MacBook Air blocks. */
  lemma IPhoneXNotALaptopMac(model: string)
    requires model == "iPhone10,3" || model == "iPhone10,6"
    ensures MacBookProModel(model) == MacBookAirModel(model) == Unknown
  {
  }

  /** Neither do the MacBook and accessory blocks. */
  lemma IPhoneXNotAnAccessory(model: string)
    requires model == "iPhone10,3" || model == "iPhone10,6"
    ensures MacBookModel(model) == AccessoryModel(model) == Unknown
  {
  }

  /** The iPhone block lists both identifiers as the iPhone X. */
  lemma IPhoneXInIPhoneBlock(model: string)
    requires model == "iPhone10,3" || model == "iPhone10,6"
    ensures IPhoneModel(model) == IPhoneX
  {
  }

  /** Both iPhone X identifiers reach the iPhone block and name the iPhone X. */
  lemma IPhoneXExample(model: string)
    requires model == "iPhone10,3" || model == "iPhone10,6"
    ensures FromModel(model) == IPhoneX
  {
    IPhoneXNotADesktopMac(model);
    IPhoneXNotALaptopMac(model);
    IPhoneXNotAnAccessory(model);
    IPhoneXInIPhoneBlock(model);
  }

  /** The desktop Mac blocks do not list the Series 3 watch identifiers. */
  lemma WatchSeries3NotADesktopMac(model: string)
    requires model == "Watch3,1" || model == "Watch3,2" || model == "Watch3,3" || model == "Watch3,4"
    ensures IMacModel(model) == MacProModel(model) == MacMiniModel(model) == Unknown
  {
  }

  /** Neither do the laptop blocks. */
  lemma WatchSeries3NotALaptopMac(model: string)
    requires model == "Watch3,1" || model == "Watch3,2" || model == "Watch3,3" || model == "Watch3,4"
    ensures MacBookProModel(model) == MacBookAirModel(model) == MacBookModel(model) == Unknown
  {
  }

  /** The accessory block lists all four as the Series 3 watch. */
  lemma WatchSeries3InAccessoryBlock(model: string)
    requires model == "Watch3,1" || model == "Watch3,2" || model == "Watch3,3" || model == "Watch3,4"
    ensures AccessoryModel(model) == AppleWatchSeries3
  {
  }

  /** All four Series 3 identifiers reach the accessory block and name the same watch. */
  lemma WatchSeries3Example(model: string)
    requires model == "Watch3,1" || model == "Watch3,2" || model == "Watch3,3" || model == "Watch3,4"
    ensures FromModel(model) == AppleWatchSeries3
  {
    WatchSeries3NotADesktopMac(model);
    WatchSeries3NotALaptopMac(model);
    WatchSeries3InAccessoryBlock(model);
  }

  /** Two different identifiers of the iMac block name the 2014-2015 Retina 5K iMac. */
  lemma SharedIMacIdentifiers()
    ensures IMacModel("iMac15,1") == IMacRetina5K27In2014To2015
    ensures IMacModel("iMac17,1") == IMacRetina5K27In2014To2015
  {
  }

  /** The first of them, looked up in the whole table. */
  lemma IMac15Example()
    ensures FromModel("iMac15,1") == IMacRetina5K27In2014To2015
  {
    SharedIMacIdentifiers();
  }

  /** The second of them, looked up in the whole table. */
  lemma IMac17Example()
    ensures FromModel("iMac17,1") == IMacRetina5K27In2014To2015
  {
    SharedIMacIdentifiers();
  }

  /** The iMac and Mac Pro blocks do not list the Mac mini identifier; the Mac mini block does. */
  lemma MacMiniInMacMiniBlock(model: string)
    requires model == "Macmini7,1"
    ensures IMacModel(model) == MacProModel(model) == Unknown
    ensures MacMiniModel(model) == MacMini2014
  {
  }

  /** The Mac mini identifier names the 2014 Mac mini in the whole table. */
  lemma MacMiniExample(model: string)
    requires model == "Macmini7,1"
    ensures FromModel(model) == MacMini2014
  {
    MacMiniInMacMiniBlock(model);
  }

  /** Matching is exact: the lower-case spelling of the Mac mini identifier is not listed. */
  lemma CaseSensitiveExample()
    ensures MacMiniModel("macmini7,1") == Unknown
  {
  }
}

=== FILE: array_update.dfy ===
/**
  `Array.update(with:)` for arrays of `Equatable` elements: replace the first
  element equal to the new one, or append it when there is none. Swift's `==`
  is whatever the element type defines, so it is a parameter `eq` here; two
  values it calls equal need not be identical, which is what makes the
  replacement observable.
 */
module ArrayUpdate {

  /** The position of the first element `eq` to `e`, or `|a|` when there is none. */
  function FirstMatch<T>(a: seq<T>, e: T, eq: (T, T) -> bool): (i: nat)
    ensures i <= |a|
    ensures forall k :: 0 <= k < i ==> !eq(a[k], e)
    ensures i < |a| ==> eq(a[i], e)
  {
    if |a| == 0 then 0
    else if eq(a[0], e) then 0
    else 1 + FirstMatch(a[1..], e, eq)
  }

  /**
    `update(with: element)`: the scan stops at the first element equal to
    `e`, removes it and inserts `e` at the same place; when the scan finds
    nothing, `e` is appended.
   */
  function Update<T(==)>(a: seq<T>, e: T, eq: (T, T) -> bool): (r: seq<T>)
    ensures e in r
    ensures forall i :: (0 <= i < |a| && eq(a[i], e) && (forall k :: 0 <= k < i ==> !eq(a[k], e)))
                        ==> r == a[i := e]
    ensures (forall k :: 0 <= k < |a| ==> !eq(a[k], e)) ==> r == a + [e]
  {
    var n := FirstMatch(a, e, eq);
    if n < |a| then
      a[..n] + [e] + a[n + 1..]
    else
      a + [e]
  }

  /** The fold that the non-empty case of the batch update performs: one `Update` per element, in order. */
  function UpdateEach<T(==)>(a: seq<T>, es: seq<T>, eq: (T, T) -> bool): (r: seq<T>)
    ensures |a| <= |r| <= |a| + |es|
    ensures |es| > 0 ==> es[|es| - 1] in r
    ensures forall k :: 0 <= k < |a| ==> r[k] == a[k] || r[k] in es
    decreases |es|
  {
    if |es| == 0 then a
    else
      var next := Update(a, es[0], eq);
      var r := UpdateEach(next, es[1..], eq);
      assert forall x :: x in es[1..] ==> x in es;
      r
  }

  /**
    `update(with: elements)`: an empty array simply takes all of `es`,
    duplicates included; otherwise every element is applied with `Update`.
   */
  function UpdateAll<T(==)>(a: seq<T>, es: seq<T>, eq: (T, T) -> bool): (r: seq<T>)
    ensures |a| == 0 ==> r == es
    ensures |a| <= |r| <= |a| + |es|
    ensures |es| > 0 ==> es[|es| - 1] in r
    ensures forall k :: 0 <= k < |a| ==> r[k] == a[k] || r[k] in es
  {
    if |a| == 0 then es
    else UpdateEach(a, es, eq)
  }

  /** An element already present is neither added twice nor moved: the length stays. */
  lemma UpdatePresentKeepsLength<T>(a: seq<T>, e: T, eq: (T, T) -> bool, i: int)
    requires 0 <= i < |a| && eq(a[i], e)
    ensures |Update(a, e, eq)| == |a|
    ensures forall k :: 0 <= k < |a| && k != FirstMatch(a, e, eq) ==> Update(a, e, eq)[k] == a[k]
  {}

  /** Updating twice with the same element is the same as updating once, when `eq` calls it equal to itself. */
  lemma UpdateIdempotent<T>(a: seq<T>, e: T, eq: (T, T) -> bool)
    requires eq(e, e)
    ensures Update(Update(a, e, eq), e, eq) == Update(a, e, eq)
  {
    var once := Update(a, e, eq);
    var i := FirstMatch(a, e, eq);
    if i < |a| {
      assert once == a[..i] + [e] + a[i + 1..];
    } else {
      assert once == a + [e];
    }
    assert |once| > i && once[i] == e;
    forall k | 0 <= k < i
      ensures !eq(once[k], e)
    {
      assert once[k] == a[k];
    }
    FirstMatchIs(once, e, eq, i);
    assert once[..i] + [e] + once[i + 1..] == once;
  }

  /** A position whose element matches, with no match before it, is the first match. */
  lemma FirstMatchIs<T>(a: seq<T>, e: T, eq: (T, T) -> bool, i: nat)
    requires i < |a| && eq(a[i], e)
    requires forall k :: 0 <= k < i ==> !eq(a[k], e)
    ensures FirstMatch(a, e, eq) == i
  {
  }

  /** The fold is a left fold: applying `xs` and then `ys` is applying `xs + ys`. */
  lemma {:induction false} UpdateEachAppend<T>(a: seq<T>, xs: seq<T>, ys: seq<T>, eq: (T, T) -> bool)
    ensures UpdateEach(a, xs + ys, eq) == UpdateEach(UpdateEach(a, xs, eq), ys, eq)
    decreases |xs|
  {
    if |xs| == 0 {
      assert xs + ys == ys;
    } else {
      assert (xs + ys)[0] == xs[0];
      assert (xs + ys)[1..] == xs[1..] + ys;
      UpdateEachAppend(Update(a, xs[0], eq), xs[1..], ys, eq);
    }
  }

  /** With `==` as the equality, a single update keeps every element already there. */
  lemma UpdateKeepsElements<T>(a: seq<T>, e: T, eq: (T, T) -> bool, x: T)
    requires forall u, v :: eq(u, v) <==> u == v
    requires x in a
    ensures x in Update(a, e, eq)
  {
    var i := FirstMatch(a, e, eq);
    var j :| 0 <= j < |a| && a[j] == x;
    if i < |a| {
      assert a[i] == e;
      assert Update(a, e, eq) == a[i := e];
      assert Update(a, e, eq)[j] == x;
    } else {
      assert Update(a, e, eq)[j] == x;
    }
  }

  /** With `==` as the equality, the fold keeps every old element and ends up holding every new one. */
  lemma {:induction false} UpdateEachContains<T>(a: seq<T>, es: seq<T>, eq: (T, T) -> bool)
    requires forall u, v :: eq(u, v) <==> u == v
    ensures forall x :: x in a ==> x in UpdateEach(a, es, eq)
    ensures forall x :: x in es ==> x in UpdateEach(a, es, eq)
    decreases |es|
  {
    if |es| > 0 {
      var next := Update(a, es[0], eq);
      UpdateEachContains(next, es[1..], eq);
      forall x | x in a
        ensures x in next
      {
        UpdateKeepsElements(a, es[0], eq, x);
      }
      forall x | x in es
        ensures x in UpdateEach(a, es, eq)
      {
        if x != es[0] {
          var k :| 0 <= k < |es| && es[k] == x;
          assert es[1..][k - 1] == x;
        }
      }
    }
  }

  /** With `==` as the equality, every element the batch update is given is in its result. */
  lemma UpdateAllContains<T>(a: seq<T>, es: seq<T>, eq: (T, T) -> bool)
    requires forall u, v :: eq(u, v) <==> u == v
    ensures forall x :: x in es ==> x in UpdateAll(a, es, eq)
    ensures forall x :: x in a ==> x in UpdateAll(a, es, eq)
  {
    if |a| > 0 {
      UpdateEachContains(a, es, eq);
    }
  }

  /**
    The empty-array shortcut is observable: the fold would collapse a repeated
    element, the shortcut keeps both copies.
   */
  lemma EmptyShortcutKeepsDuplicates()
    ensures UpdateAll([], ["One", "One"], (x: string, y: string) => x == y) == ["One", "One"]
    ensures UpdateEach([], ["One", "One"], (x: string, y: string) => x == y) == ["One"]
  {
    var eq := (x: string, y: string) => x == y;
    assert Update([], "One", eq) == ["One"];
    assert FirstMatch(["One"], "One", eq) == 0;
    assert Update(["One"], "One", eq) == ["One"];
  }

  /** Updating `["One", "Two", "Three"]` with "One" keeps three elements. */
  lemma UpdateExistingExample()
    ensures |Update(["One", "Two", "Three"], "One", (x: string, y: string) => x == y)| == 3
  {
    UpdatePresentKeepsLength(["One", "Two", "Three"], "One", (x: string, y: string) => x == y, 0);
  }
}

=== FILE: color_hex.dfy ===
/**
  The integer side of the colour hex codec: `Color(fromHex:)` turns a
  string such as `#FF0000` or `FF0000CC` into red, green, blue and alpha
  channels, and `toHex(withPrefix:includeAlpha:)` writes channels back as
  upper-case hex. Channels are bytes here; the scaling by 255 to and from
  floating point is not part of this model.
 */
module ColorHex {
  import opened Wrappers

  /** One colour channel, 0 to 255. */
  type Byte = x: int | 0 <= x < 256

  datatype Rgba = Rgba(red: Byte, green: Byte, blue: Byte, alpha: Byte)

  /**
    The characters `whitespacesAndNewlines` trims: ASCII blanks and line
    breaks, and the Unicode space separators and line and paragraph
    separators.
   */
  predicate IsWhitespace(c: char) {
    var n := c as int;
    n == 0x20 || 0x09 <= n <= 0x0D || n == 0x85 || n == 0xA0 || n == 0x1680
    || 0x2000 <= n <= 0x200A || n == 0x2028 || n == 0x2029 || n == 0x202F
    || n == 0x205F || n == 0x3000
  }

  /** How many whitespace characters `s` starts with. */
  function LeadingWhitespace(s: string): (k: nat)
    ensures k <= |s|
    ensures forall i :: 0 <= i < k ==> IsWhitespace(s[i])
    ensures k < |s| ==> !IsWhitespace(s[k])
  {
    if |s| > 0 && IsWhitespace(s[0]) then 1 + LeadingWhitespace(s[1..]) else 0
  }

  /** How many whitespace characters `s` ends with. */
  function TrailingWhitespace(s: string): (k: nat)
    ensures k <= |s|
    ensures forall i :: |s| - k <= i < |s| ==> IsWhitespace(s[i])
    ensures k < |s| ==> !IsWhitespace(s[|s| - k - 1])
  {
    if |s| > 0 && IsWhitespace(s[|s| - 1]) then 1 + TrailingWhitespace(s[..|s| - 1]) else 0
  }

  /**
    `trimmingCharacters(in: .whitespacesAndNewlines)`: the middle of `s`
    after its leading whitespace and before its trailing whitespace. What is
    cut off is whitespace, what is kept neither starts nor ends with it.
   */
  function Trim(s: string): (r: string)
    ensures LeadingWhitespace(s) + |r| <= |s|
    ensures r == s[LeadingWhitespace(s)..LeadingWhitespace(s) + |r|]
    ensures forall i :: LeadingWhitespace(s) + |r| <= i < |s| ==> IsWhitespace(s[i])
    ensures |r| > 0 ==> !IsWhitespace(r[0]) && !IsWhitespace(r[|r| - 1])
    ensures (|s| == 0 || (!IsWhitespace(s[0]) && !IsWhitespace(s[|s| - 1]))) ==> r == s
  {
    var rest := s[LeadingWhitespace(s)..];
    rest[..|rest| - TrailingWhitespace(rest)]
  }

  /** `replacingOccurrences(of: "#", with: "")`: every `#`, wherever it is, goes. */
  function RemoveHashes(s: string): (r: string)
    ensures |r| <= |s|
    ensures forall i :: 0 <= i < |r| ==> r[i] != '#'
    ensures |s| == 1 ==> r == if s[0] == '#' then "" else s
  {
    if |s| == 0 then ""
    else (if s[0] == '#' then "" else [s[0]]) + RemoveHashes(s[1..])
  }

  /** Removal works piece by piece, so the kept characters stay in their order. */
  lemma {:induction false} RemoveHashesAppend(a: string, b: string)
    ensures RemoveHashes(a + b) == RemoveHashes(a) + RemoveHashes(b)
    decreases |a|
  {
    if |a| == 0 {
      assert a + b == b;
    } else {
      assert (a + b)[0] == a[0];
      assert (a + b)[1..] == a[1..] + b;
      RemoveHashesAppend(a[1..], b);
      var head := if a[0] == '#' then "" else [a[0]];
      assert RemoveHashes(a + b) == head + (RemoveHashes(a[1..]) + RemoveHashes(b));
      assert head + (RemoveHashes(a[1..]) + RemoveHashes(b)) == (head + RemoveHashes(a[1..])) + RemoveHashes(b);
    }
  }

  /** Text without a `#` is left as it is. */
  lemma {:induction false} NoHashesUnchanged(s: string)
    requires forall i :: 0 <= i < |s| ==> s[i] != '#'
    ensures RemoveHashes(s) == s
  {
    if |s| > 0 {
      NoHashesUnchanged(s[1..]);
      assert s == [s[0]] + s[1..];
    }
  }

  /** Removing the `#` characters keeps every other character, as often as it occurred. */
  lemma {:induction false} RemoveHashesKeepsOthers(s: string)
    ensures multiset(RemoveHashes(s)) == multiset(s)['#' := 0]
  {
    if |s| > 0 {
      RemoveHashesKeepsOthers(s[1..]);
      assert s == [s[0]] + s[1..];
      assert multiset(s) == multiset([s[0]]) + multiset(s[1..]);
    }
  }

  /** The text the scanner sees: trimmed, then stripped of every `#`. */
  function Sanitize(hex: string): (r: string)
    ensures |r| <= |hex|
    ensures forall i :: 0 <= i < |r| ==> r[i] != '#'
  {
    RemoveHashes(Trim(hex))
  }

  /** Sanitising keeps every character of the trimmed text except `#`, as often as it occurs. */
  lemma SanitizeKeepsOthers(hex: string)
    ensures multiset(Sanitize(hex)) == multiset(Trim(hex))['#' := 0]
  {
    RemoveHashesKeepsOthers(Trim(hex));
  }

  predicate IsHexDigit(c: char) {
    '0' <= c <= '9' || 'A' <= c <= 'F' || 'a' <= c <= 'f'
  }

  predicate AllHex(s: string) {
    forall i :: 0 <= i < |s| ==> IsHexDigit(s[i])
  }

  /** The value of one hex digit, in either case. */
  function DigitValue(c: char): (v: nat)
    requires IsHexDigit(c)
    ensures v < 16
  {
    if '0' <= c <= '9' then c as int - '0' as int
    else if 'A' <= c <= 'F' then c as int - 'A' as int + 10
    else c as int - 'a' as int + 10
  }

  /** The upper-case hex digit for `v`. */
  function HexDigit(v: nat): (c: char)
    requires v < 16
    ensures IsHexDigit(c) && !('a' <= c <= 'f')
    ensures DigitValue(c) == v
  {
    if v < 10 then ('0' as int + v) as char else ('A' as int + v - 10) as char
  }

  /** The number an all-hex string spells, most significant digit first. */
  function HexValue(s: string): (v: nat)
    requires AllHex(s)
  {
    if |s| == 0 then 0
    else HexValue(s[..|s| - 1]) * 16 + DigitValue(s[|s| - 1])
  }

  /** `v >> (8 * k)`. */
  function ShiftBytes(v: nat, k: nat): nat {
    if k == 0 then v else ShiftBytes(v / 0x100, k - 1)
  }

  /** `(v & (0xFF << (8 * k))) >> (8 * k)`: the byte in bits `8k` to `8k + 7`. */
  function ByteAt(v: nat, k: nat): Byte {
    ShiftBytes(v, k) % 0x100
  }

  /** The number of hex digits `s` starts with. */
  function HexRun(s: string): (k: nat)
    ensures k <= |s|
    ensures forall i :: 0 <= i < k ==> IsHexDigit(s[i])
    ensures k < |s| ==> !IsHexDigit(s[k])
  {
    if |s| > 0 && IsHexDigit(s[0]) then 1 + HexRun(s[1..]) else 0
  }

  /**
    `Scanner.scanHexInt64` on the sanitised text: it reads the hex digits the
    text starts with and stops at the first other character; it fails when
    there is no digit to read. Every value reaching a channel comes from at
    most eight digits, so the 64-bit result cannot overflow here.
   */
  function ScanHex(s: string): (r: Option<nat>)
    ensures r.Some? <==> |s| > 0 && IsHexDigit(s[0])
    ensures AllHex(s) && |s| > 0 ==> r == Some(HexValue(s))
  {
    var k := HexRun(s);
    assert AllHex(s[..k]);
    if k == 0 then None
    else
      assert AllHex(s) ==> k == |s| && s[..k] == s;
      Some(HexValue(s[..k]))
  }

  /** The scan reads a run of digits and ignores whatever follows it, once a non-digit stops it. */
  lemma ScanStopsAtNonDigit(digits: string, rest: string)
    requires |digits| > 0 && AllHex(digits)
    requires |rest| > 0 && !IsHexDigit(rest[0])
    ensures ScanHex(digits + rest) == Some(HexValue(digits))
  {
    var s := digits + rest;
    HexRunOfDigits(digits, rest);
    assert s[..|digits|] == digits;
  }

  lemma {:induction false} HexRunOfDigits(digits: string, rest: string)
    requires AllHex(digits)
    requires |rest| > 0 && !IsHexDigit(rest[0])
    ensures HexRun(digits + rest) == |digits|
    decreases |digits|
  {
    if |digits| > 0 {
      assert (digits + rest)[1..] == digits[1..] + rest;
      HexRunOfDigits(digits[1..], rest);
    } else {
      assert digits + rest == rest;
    }
  }

  /**
    `init?(fromHex:)` with byte channels. The sanitised text must scan;
    then six characters give red, green and blue from bits 16-23, 8-15 and
    0-7 of the scanned value with a full alpha, eight characters give red,
    green, blue and alpha from bits 24-31, 16-23, 8-15 and 0-7, and any
    other length is refused. The length is that of the whole sanitised
    text, not of the digits the scan read.
   */
  function ParseHex(hex: string): (r: Option<Rgba>)
    ensures r.Some? <==> ScanHex(Sanitize(hex)).Some? && (|Sanitize(hex)| == 6 || |Sanitize(hex)| == 8)
    ensures r.Some? && |Sanitize(hex)| == 6 ==>
      r.value == Rgba(ByteAt(ScanHex(Sanitize(hex)).value, 2), ByteAt(ScanHex(Sanitize(hex)).value, 1),
                      ByteAt(ScanHex(Sanitize(hex)).value, 0), 0xFF)
    ensures r.Some? && |Sanitize(hex)| == 8 ==>
      r.value == Rgba(ByteAt(ScanHex(Sanitize(hex)).value, 3), ByteAt(ScanHex(Sanitize(hex)).value, 2),
                      ByteAt(ScanHex(Sanitize(hex)).value, 1), ByteAt(ScanHex(Sanitize(hex)).value, 0))
  {
    var t := Sanitize(hex);
    match ScanHex(t)
    case None => None
    case Some(rgb) =>
      if |t| == 6 then
        Some(Rgba(ByteAt(rgb, 2), ByteAt(rgb, 1), ByteAt(rgb, 0), 0xFF))
      else if |t| == 8 then
        Some(Rgba(ByteAt(rgb, 3), ByteAt(rgb, 2), ByteAt(rgb, 1), ByteAt(rgb, 0)))
      else None
  }

  /** Two upper-case hex digits for one channel: the `%02lX` format. */
  function HexByte(b: Byte): (r: string)
    ensures |r| == 2 && IsHexDigit(r[0]) && IsHexDigit(r[1])
    ensures !('a' <= r[0] <= 'f') && !('a' <= r[1] <= 'f')
    ensures DigitValue(r[0]) * 16 + DigitValue(r[1]) == b
  {
    [HexDigit(b / 16), HexDigit(b % 16)]
  }

  /**
    `toHex(withPrefix:includeAlpha:)` over the colour's component list:
    fewer than three components give white, a missing fourth component is
    a full alpha, and each channel is written as two upper-case hex digits.
   */
  function ToHex(components: seq<Byte>, withPrefix: bool := true, includeAlpha: bool := true): (r: string)
    ensures |r| == (if withPrefix then 1 else 0)
                   + (if |components| >= 3 && includeAlpha then 8 else 6)
    ensures withPrefix <==> |r| > 0 && r[0] == '#'
    ensures |components| < 3 ==> r == (if withPrefix then "#" else "") + "FFFFFF"
  {
    var prefix := if withPrefix then "#" else "";
    if |components| < 3 then
      prefix + "FFFFFF"
    else
      var alpha := if |components| >= 4 then components[3] else 0xFF;
      var digits := HexByte(components[0]) + HexByte(components[1]) + HexByte(components[2])
        + (if includeAlpha then HexByte(alpha) else "");
      assert (prefix + digits)[|prefix|..] == digits;
      prefix + digits
  }

  /** Division by 256 recovered from a decomposition. */
  lemma ByteDecomposition(x: int, q: int, m: int)
    requires x == q * 0x100 + m && 0 <= m < 0x100
    ensures x / 0x100 == q && x % 0x100 == m
  {
  }

  /** Appending one formatted channel shifts the value left by a byte. */
  lemma {:induction false} HexValueAppendByte(a: string, b: Byte)
    requires AllHex(a)
    ensures AllHex(a + HexByte(b))
    ensures HexValue(a + HexByte(b)) == HexValue(a) * 0x100 + b
  {
    var h := HexByte(b);
    var s := a + h;
    assert s[..|s| - 1] == a + [h[0]];
    assert (a + [h[0]])[..|a|] == a;
  }

  /** Bytes written most significant first read back in place. */
  lemma ThreeBytes(v: nat, x: Byte, y: Byte, z: Byte)
    requires v == (x * 0x100 + y) * 0x100 + z
    ensures ByteAt(v, 0) == z && ByteAt(v, 1) == y && ByteAt(v, 2) == x
  {
    var u := x * 0x100 + y;
    ByteDecomposition(v, u, z);
    ByteDecomposition(u, x, y);
    ByteDecomposition(x, 0, x);
    assert ShiftBytes(v, 1) == ShiftBytes(u, 0) == u;
    assert ShiftBytes(v, 2) == ShiftBytes(u, 1) == ShiftBytes(x, 0) == x;
  }

  lemma FourBytes(v: nat, w: Byte, x: Byte, y: Byte, z: Byte)
    requires v == ((w * 0x100 + x) * 0x100 + y) * 0x100 + z
    ensures ByteAt(v, 0) == z && ByteAt(v, 1) == y && ByteAt(v, 2) == x && ByteAt(v, 3) == w
  {
    var t := w * 0x100 + x;
    var u := t * 0x100 + y;
    ByteDecomposition(v, u, z);
    ByteDecomposition(u, t, y);
    ByteDecomposition(t, w, x);
    ByteDecomposition(w, 0, w);
    assert ShiftBytes(v, 1) == ShiftBytes(u, 0) == u;
    assert ShiftBytes(v, 2) == ShiftBytes(u, 1) == ShiftBytes(t, 0) == t;
    assert ShiftBytes(v, 3) == ShiftBytes(u, 2) == ShiftBytes(t, 1) == ShiftBytes(w, 0) == w;
  }

  /** The value of formatted channels, most significant first. */
  lemma ValueOfThree(x: Byte, y: Byte, z: Byte)
    ensures AllHex(HexByte(x) + HexByte(y) + HexByte(z))
    ensures HexValue(HexByte(x) + HexByte(y) + HexByte(z)) == (x * 0x100 + y) * 0x100 + z
  {
    HexValueAppendByte([], x);
    assert [] + HexByte(x) == HexByte(x);
    HexValueAppendByte(HexByte(x), y);
    HexValueAppendByte(HexByte(x) + HexByte(y), z);
  }

  lemma ValueOfFour(w: Byte, x: Byte, y: Byte, z: Byte)
    ensures AllHex(HexByte(w) + HexByte(x) + HexByte(y) + HexByte(z))
    ensures HexValue(HexByte(w) + HexByte(x) + HexByte(y) + HexByte(z))
      == ((w * 0x100 + x) * 0x100 + y) * 0x100 + z
  {
    ValueOfThree(w, x, y);
    HexValueAppendByte(HexByte(w) + HexByte(x) + HexByte(y), z);
  }

  /** Sanitising leaves bare hex digits alone and drops a leading `#`. */
  lemma SanitizeFormatted(digits: string, withPrefix: bool)
    requires |digits| > 0 && AllHex(digits)
    ensures Sanitize((if withPrefix then "#" else "") + digits) == digits
  {
    var s := (if withPrefix then "#" else "") + digits;
    assert s[|s| - 1] == digits[|digits| - 1];
    assert !IsWhitespace(s[0]) && !IsWhitespace(s[|s| - 1]);
    assert Trim(s) == s;
    forall i | 0 <= i < |digits|
      ensures digits[i] != '#'
    {
      assert IsHexDigit(digits[i]);
    }
    NoHashesUnchanged(digits);
    if withPrefix {
      assert s[1..] == digits;
      assert RemoveHashes(s) == "" + RemoveHashes(digits);
    }
  }

  /** What `toHex` writes for three or more channels. */
  lemma ToHexDigits(components: seq<Byte>, withPrefix: bool, includeAlpha: bool)
    requires |components| >= 3
    ensures ToHex(components, withPrefix, includeAlpha)
      == (if withPrefix then "#" else "")
         + HexByte(components[0]) + HexByte(components[1]) + HexByte(components[2])
         + (if includeAlpha then HexByte(if |components| >= 4 then components[3] else 0xFF) else "")
  {
  }

  /** Formatting four channels with alpha and parsing the result gives the colour back. */
  lemma ParseAfterFormat(c: Rgba, withPrefix: bool)
    ensures AllHex(Sanitize(ToHex([c.red, c.green, c.blue, c.alpha], withPrefix, true)))
    ensures ParseHex(ToHex([c.red, c.green, c.blue, c.alpha], withPrefix, true)) == Some(c)
  {
    var digits := HexByte(c.red) + HexByte(c.green) + HexByte(c.blue) + HexByte(c.alpha);
    var prefix := if withPrefix then "#" else "";
    var h := ToHex([c.red, c.green, c.blue, c.alpha], withPrefix, true);
    ToHexDigits([c.red, c.green, c.blue, c.alpha], withPrefix, true);
    assert h == prefix + digits;
    ValueOfFour(c.red, c.green, c.blue, c.alpha);
    SanitizeFormatted(digits, withPrefix);
    assert Sanitize(h) == digits;
    assert |digits| == 8;
    var v := HexValue(digits);
    FourBytes(v, c.red, c.green, c.blue, c.alpha);
    assert ParseHex(h) == Some(Rgba(ByteAt(v, 3), ByteAt(v, 2), ByteAt(v, 1), ByteAt(v, 0)));
  }

  /** Formatting three channels without alpha and parsing gives them back with a full alpha. */
  lemma ParseAfterFormatOpaque(red: Byte, green: Byte, blue: Byte, withPrefix: bool)
    ensures AllHex(Sanitize(ToHex([red, green, blue], withPrefix, false)))
    ensures ParseHex(ToHex([red, green, blue], withPrefix, false)) == Some(Rgba(red, green, blue, 0xFF))
  {
    var digits := HexByte(red) + HexByte(green) + HexByte(blue);
    var prefix := if withPrefix then "#" else "";
    var h := ToHex([red, green, blue], withPrefix, false);
    ToHexDigits([red, green, blue], withPrefix, false);
    assert h == prefix + digits;
    ValueOfThree(red, green, blue);
    SanitizeFormatted(digits, withPrefix);
    assert Sanitize(h) == digits;
    var v := HexValue(digits);
    ThreeBytes(v, red, green, blue);
    assert ParseHex(h) == Some(Rgba(ByteAt(v, 2), ByteAt(v, 1), ByteAt(v, 0), 0xFF));
  }

  /** A hex digit as `%X` writes it: `a` to `f` become `A` to `F`. */
  function UpperDigit(c: char): char {
    if 'a' <= c <= 'f' then (c as int - 32) as char else c
  }

  function UpperHex(s: string): (r: string)
    ensures |r| == |s| && forall i :: 0 <= i < |s| ==> r[i] == UpperDigit(s[i])
  {
    seq(|s|, i requires 0 <= i < |s| => UpperDigit(s[i]))
  }

  /** Formatting a digit's value gives the digit back, upper-cased. */
  lemma DigitRoundTrip(c: char)
    requires IsHexDigit(c)
    ensures HexDigit(DigitValue(c)) == UpperDigit(c)
  {
  }

  /** The last two digits of a hex string are its low byte. */
  lemma {:induction false} HexValueDropPair(s: string)
    requires AllHex(s) && |s| >= 2
    ensures AllHex(s[..|s| - 2])
    ensures HexValue(s) == HexValue(s[..|s| - 2]) * 0x100
                           + DigitValue(s[|s| - 2]) * 16 + DigitValue(s[|s| - 1])
  {
    assert s[..|s| - 1][..|s| - 2] == s[..|s| - 2];
  }

  /** The byte written by the two digits at `i` and `i + 1`. */
  function PairAt(t: string, i: nat): Byte
    requires i + 1 < |t| && IsHexDigit(t[i]) && IsHexDigit(t[i + 1])
  {
    DigitValue(t[i]) * 16 + DigitValue(t[i + 1])
  }

  /** Two hex digits read as a byte and written back come out upper-cased. */
  lemma PairRoundTrip(t: string, i: nat)
    requires i + 1 < |t| && IsHexDigit(t[i]) && IsHexDigit(t[i + 1])
    ensures HexByte(PairAt(t, i)) == [UpperDigit(t[i]), UpperDigit(t[i + 1])]
  {
    var b := PairAt(t, i);
    assert b / 16 == DigitValue(t[i]) && b % 16 == DigitValue(t[i + 1]);
    DigitRoundTrip(t[i]);
    DigitRoundTrip(t[i + 1]);
  }

  /** Six digits spell three bytes, most significant first. */
  lemma ValueOfSixDigits(t: string)
    requires |t| == 6 && AllHex(t)
    ensures HexValue(t) == (PairAt(t, 0) * 0x100 + PairAt(t, 2)) * 0x100 + PairAt(t, 4)
  {
    HexValueDropPair(t);
    var t4 := t[..4];
    HexValueDropPair(t4);
    var t2 := t4[..2];
    assert t2 == t[..2];
    HexValueDropPair(t2);
    assert t2[..0] == [];
  }

  /** Parsing six digits and formatting the colour without prefix or alpha gives the digits back, upper-cased. */
  lemma FormatAfterParse(t: string)
    requires |t| == 6 && AllHex(t)
    ensures AllHex(Sanitize(t)) && ParseHex(t).Some?
    ensures var c := ParseHex(t).value;
      ToHex([c.red, c.green, c.blue], false, false) == UpperHex(t)
  {
    SanitizeFormatted(t, false);
    assert "" + t == t;
    var x, y, z := PairAt(t, 0), PairAt(t, 2), PairAt(t, 4);
    ValueOfSixDigits(t);
    var v := HexValue(t);
    ThreeBytes(v, x, y, z);
    var c := ParseHex(t).value;
    assert c == Rgba(x, y, z, 0xFF);
    FormatSixDigits(t);
  }

  /** The three bytes six digits spell are written back as the same digits, upper-cased. */
  lemma FormatSixDigits(t: string)
    requires |t| == 6 && AllHex(t)
    ensures ToHex([PairAt(t, 0), PairAt(t, 2), PairAt(t, 4)], false, false) == UpperHex(t)
  {
    var x, y, z := PairAt(t, 0), PairAt(t, 2), PairAt(t, 4);
    ToHexOpaqueDigits(x, y, z);
    PairRoundTrip(t, 0);
    PairRoundTrip(t, 2);
    PairRoundTrip(t, 4);
    UpperHexOfSix(t);
  }

  /** `toHex(withPrefix: false, includeAlpha: false)` on three channels: their six digits. */
  lemma ToHexOpaqueDigits(x: Byte, y: Byte, z: Byte)
    ensures ToHex([x, y, z], false, false) == HexByte(x) + HexByte(y) + HexByte(z)
  {
    ToHexDigits([x, y, z], false, false);
    assert "" + HexByte(x) + HexByte(y) + HexByte(z) + "" == HexByte(x) + HexByte(y) + HexByte(z);
  }

  /** Six upper-cased digits, pair by pair. */
  lemma UpperHexOfSix(t: string)
    requires |t| == 6
    ensures UpperHex(t) == [UpperDigit(t[0]), UpperDigit(t[1])] + [UpperDigit(t[2]), UpperDigit(t[3])]
                           + [UpperDigit(t[4]), UpperDigit(t[5])]
  {
    var u0, u1, u2, u3, u4, u5 := UpperDigit(t[0]), UpperDigit(t[1]), UpperDigit(t[2]),
                                  UpperDigit(t[3]), UpperDigit(t[4]), UpperDigit(t[5]);
    assert [u0, u1] + [u2, u3] + [u4, u5] == [u0, u1, u2, u3, u4, u5];
    assert |UpperHex(t)| == 6;
  }

  /** The red test colour reads back as itself. */
  lemma RedFormats()
    ensures ToHex([0xFF, 0, 0], false, false) == "FF0000"
  {
    assert HexByte(0xFF) == "FF";
    assert HexByte(0) == "00";
    ToHexOpaqueDigits(0xFF, 0, 0);
  }

  /** The red test colour parses to full red and formats back to the same text. */
  lemma RedRoundTrip()
    ensures AllHex(Sanitize("FF0000")) && ParseHex("FF0000") == Some(Rgba(0xFF, 0, 0, 0xFF))
    ensures var c := ParseHex("FF0000").value;
      ToHex([c.red, c.green, c.blue], false, false) == "FF0000"
  {
    RedFormats();
    ParseAfterFormatOpaque(0xFF, 0, 0, false);
  }

  /** Surrounding whitespace goes, and so does every `#`, not only a leading one. */
  lemma SanitizeExample()
    ensures Sanitize(" #A#B#\n") == "AB"
  {
    TrimExample();
    HashesExample();
  }

  lemma TrimExample()
    ensures Trim(" #A#B#\n") == "#A#B#"
  {
    var s, t := " #A#B#\n", "#A#B#\n";
    assert IsWhitespace(s[0]) && !IsWhitespace(s[1]);
    assert LeadingWhitespace(s) == 1;
    assert s[1..] == t;
    assert IsWhitespace(t[|t| - 1]) && !IsWhitespace(t[|t| - 2]);
    assert TrailingWhitespace(t) == 1;
  }

  lemma HashesExample()
    ensures RemoveHashes("#A#B#") == "AB"
  {
    var s5, s4, s3, s2, s1 := "#A#B#", "A#B#", "#B#", "B#", "#";
    assert s5[1..] == s4 && s4[1..] == s3 && s3[1..] == s2 && s2[1..] == s1 && s1[1..] == [];
    assert RemoveHashes(s1) == "";
    assert RemoveHashes(s2) == "B";
    assert RemoveHashes(s3) == "B";
    assert RemoveHashes(s4) == "AB";
  }

  /** An empty string does not scan. */
  lemma EmptyRefused()
    ensures ParseHex("") == None
  {
  }

  /** Three digits are refused even though they scan. */
  lemma ShortRefused(hex: string)
    requires hex == "#FFF"
    ensures AllHex(Sanitize(hex)) && ParseHex(hex) == None
  {
    WrongLengthRefused("FFF", true);
    assert "#" + "FFF" == hex;
  }

  /** Hex digits of any length but six and eight are refused, with or without a prefix. */
  lemma WrongLengthRefused(t: string, withPrefix: bool)
    requires |t| > 0 && AllHex(t) && |t| != 6 && |t| != 8
    ensures var s := (if withPrefix then "#" else "") + t;
            AllHex(Sanitize(s)) && ParseHex(s) == None
  {
    SanitizeFormatted(t, withPrefix);
  }

  /** Seven digits are refused. */
  lemma OddLengthRefused()
    ensures AllHex(Sanitize("FF00000")) && ParseHex("FF00000") == None
  {
    WrongLengthRefused("FF00000", false);
    assert "" + "FF00000" == "FF00000";
  }

  /** Appending a digit multiplies the value by sixteen and adds the digit. */
  lemma HexValueAppendDigit(a: string, c: char)
    requires AllHex(a) && IsHexDigit(c)
    ensures AllHex(a + [c])
    ensures HexValue(a + [c]) == HexValue(a) * 16 + DigitValue(c)
  {
    assert (a + [c])[..|a|] == a;
  }

  /** Text without a `#` and without whitespace at either end is already sanitised. */
  lemma SanitizeUnchanged(s: string)
    requires |s| == 0 || (!IsWhitespace(s[0]) && !IsWhitespace(s[|s| - 1]))
    requires forall i :: 0 <= i < |s| ==> s[i] != '#'
    ensures Sanitize(s) == s
  {
    NoHashesUnchanged(s);
  }

  /** Five `F` digits spell 0xFFFFF. */
  lemma FiveDigitsValue()
    ensures AllHex("FFFFF") && HexValue("FFFFF") == 0xFFFFF
  {
    var d1, d2, d3, d4 := "F", "FF", "FFF", "FFFF";
    HexValueAppendDigit("", 'F');
    assert "" + ['F'] == d1;
    HexValueAppendDigit(d1, 'F');
    assert d1 + ['F'] == d2;
    HexValueAppendDigit(d2, 'F');
    assert d2 + ['F'] == d3;
    HexValueAppendDigit(d3, 'F');
    assert d3 + ['F'] == d4;
    HexValueAppendDigit(d4, 'F');
    assert d4 + ['F'] == "FFFFF";
  }

  /** The scan of "FFFFFZ" reads the five digits and stops at the `Z`. */
  lemma TrailingJunkScan(hex: string)
    requires hex == "FFFFFZ"
    ensures Sanitize(hex) == hex
    ensures ScanHex(hex) == Some(0xFFFFF)
  {
    SanitizeUnchanged(hex);
    FiveDigitsValue();
    assert "FFFFF" + "Z" == hex;
    ScanStopsAtNonDigit("FFFFF", "Z");
  }

  /**
    Six characters whose last is not a digit still give a colour: the scan
    reads the five digits before it, and the length check counts all six.
   */
  lemma TrailingJunkAccepted(hex: string)
    requires hex == "FFFFFZ"
    ensures ParseHex(hex) == Some(Rgba(0x0F, 0xFF, 0xFF, 0xFF))
  {
    TrailingJunkScan(hex);
    FiveDigitBytes();
  }

  /** The bytes of 0xFFFFF, from the lowest: 0xFF, 0xFF, 0x0F. */
  lemma FiveDigitBytes()
    ensures ByteAt(0xFFFFF, 0) == 0xFF && ByteAt(0xFFFFF, 1) == 0xFF && ByteAt(0xFFFFF, 2) == 0x0F
  {
    assert ShiftBytes(0xFFFFF, 1) == 0xFFF;
    assert ShiftBytes(0xFFFFF, 2) == 0xF;
  }

  /** Six characters that start with a non-digit do not scan. */
  lemma NoDigitsRefused(hex: string)
    requires hex == "ZZZZZZ"
    ensures ParseHex(hex) == None
  {
    SanitizeUnchanged(hex);
    assert HexRun(hex) == 0;
  }

  /** Without components the result is white. */
  lemma MissingComponentsGiveWhite()
    ensures ToHex([]) == "#FFFFFF"
    ensures ToHex([0x10, 0x20], false) == "FFFFFF"
  {
  }
}

=== FILE: obfuscation.dfy ===
/**
  The text obfuscation scheme of `ObfuscationProvider`: a position-dependent
  rotation cipher over a fixed alphabet of 88 symbols, plus a weighted-sum
  checksum. Every operation is total; unknown symbols and out-of-range codes
  degrade to the sentinels `-1`, `""` or the unchanged input.

  Text is a `string` (a sequence of characters); a "character" argument of the
  source is a `String`, so it is a `string` here too, normally of length one.
 */
module Obfuscation {

  /** Number of symbols in the alphabet. */
  const Size: int := 88

  /**
    The symbol with code `i`: the ten digits, a space, the letters A to Z each
    followed by its lower-case form, then 25 punctuation marks.
   */
  function SymbolAt(i: int): char
    requires 0 <= i < Size
  {
    if i < 10 then ('0' as int + i) as char
    else if i == 10 then ' '
    else if i < 63 then
      if (i - 11) % 2 == 0 then ('A' as int + (i - 11) / 2) as char
      else ('a' as int + (i - 11) / 2) as char
    else match i - 63
      case 0 => '!' case 1 => '@' case 2 => '#' case 3 => '$' case 4 => '%'
      case 5 => '^' case 6 => '&' case 7 => '*' case 8 => '(' case 9 => ')'
      case 10 => '_' case 11 => '-' case 12 => '+' case 13 => '=' case 14 => '{'
      case 15 => '}' case 16 => '[' case 17 => ']' case 18 => '|' case 19 => ':'
      case 20 => ';' case 21 => ',' case 22 => '.' case 23 => '/' case _ => '?'
  }

  /** The ordered alphabet; a symbol's position is its code. */
  function CharacterSet(): string {
    seq(Size, SymbolAt)
  }

  /** The symbols with codes `from` up to, not including, `from + n`. */
  function Run(from: nat, n: nat): string
    requires from + n <= Size
  {
    seq(n, j requires 0 <= j < n => SymbolAt(from + j))
  }

  /** Two adjacent runs make one. */
  lemma RunSplit(from: nat, n: nat, m: nat)
    requires from + n + m <= Size
    ensures Run(from, n + m) == Run(from, n) + Run(from + n, m)
  {
    var a, b := Run(from, n), Run(from + n, m);
    forall j | 0 <= j < n + m
      ensures Run(from, n + m)[j] == (a + b)[j]
    {
      if j >= n {
        assert (a + b)[j] == b[j - n];
      }
    }
  }

  // The source's literal, in pieces short enough for the verifier to index.
  const Digits: string := "0123456789"
  const Space: string := " "
  const LettersAToG: string := "AaBbCcDdEeFfG"
  const LettersGToM: string := "gHhIiJjKkLlMm"
  const LettersNToT: string := "NnOoPpQqRrSsT"
  const LettersTToZ: string := "tUuVvWwXxYyZz"
  const MarksToPlus: string := "!@#$%^&*()_-+"
  const MarksFromEquals: string := "={}[]|:;,./?"

  lemma DigitsSpelling()
    ensures Run(0, 10) == Digits
  {
    forall j | 0 <= j < 10
      ensures Run(0, 10)[j] == Digits[j]
    {
      assert Run(0, 10)[j] == SymbolAt(0 + j);
    }
  }

  lemma SpaceSpelling()
    ensures Run(10, 1) == Space
  {
    forall j | 0 <= j < 1
      ensures Run(10, 1)[j] == Space[j]
    {
      assert Run(10, 1)[j] == SymbolAt(10 + j);
    }
  }

  lemma LettersAToGSpelling()
    ensures Run(11, 13) == LettersAToG
  {
    forall j | 0 <= j < 13
      ensures Run(11, 13)[j] == LettersAToG[j]
    {
      assert Run(11, 13)[j] == SymbolAt(11 + j);
    }
  }

  lemma LettersGToMSpelling()
    ensures Run(24, 13) == LettersGToM
  {
    forall j | 0 <= j < 13
      ensures Run(24, 13)[j] == LettersGToM[j]
    {
      assert Run(24, 13)[j] == SymbolAt(24 + j);
    }
  }

  lemma LettersNToTSpelling()
    ensures Run(37, 13) == LettersNToT
  {
    forall j | 0 <= j < 13
      ensures Run(37, 13)[j] == LettersNToT[j]
    {
      assert Run(37, 13)[j] == SymbolAt(37 + j);
    }
  }

  lemma LettersTToZSpelling()
    ensures Run(50, 13) == LettersTToZ
  {
    forall j | 0 <= j < 13
      ensures Run(50, 13)[j] == LettersTToZ[j]
    {
      assert Run(50, 13)[j] == SymbolAt(50 + j);
    }
  }

  lemma MarksToPlusSpelling()
    ensures Run(63, 13) == MarksToPlus
  {
    forall j | 0 <= j < 13
      ensures Run(63, 13)[j] == MarksToPlus[j]
    {
      assert Run(63, 13)[j] == SymbolAt(63 + j);
    }
  }

  lemma MarksFromEqualsSpelling()
    ensures Run(76, 12) == MarksFromEquals
  {
    forall j | 0 <= j < 12
      ensures Run(76, 12)[j] == MarksFromEquals[j]
    {
      assert Run(76, 12)[j] == SymbolAt(76 + j);
    }
  }

  /** The digits and the space. */
  lemma DigitsAndSpaceSpelling()
    ensures Run(0, 11) == Digits + Space
  {
    RunSplit(0, 10, 1);
    DigitsSpelling();
    SpaceSpelling();
  }

  /** The letters A to M, each capital followed by its lower-case form. */
  lemma LettersAToMSpelling()
    ensures Run(11, 26) == LettersAToG + LettersGToM
  {
    RunSplit(11, 13, 13);
    LettersAToGSpelling();
    LettersGToMSpelling();
  }

  /** The letters N to Z, each capital followed by its lower-case form. */
  lemma LettersNToZSpelling()
    ensures Run(37, 26) == LettersNToT + LettersTToZ
  {
    RunSplit(37, 13, 13);
    LettersNToTSpelling();
    LettersTToZSpelling();
  }

  /** The 25 punctuation marks. */
  lemma MarksSpelling()
    ensures Run(63, 25) == MarksToPlus + MarksFromEquals
  {
    RunSplit(63, 13, 12);
    MarksToPlusSpelling();
    MarksFromEqualsSpelling();
  }

  /** The alphabet is, symbol for symbol, the source's character-set literal. */
  lemma CharacterSetSpelling()
    ensures CharacterSet()
      == ((Digits + Space) + (LettersAToG + LettersGToM)) + ((LettersNToT + LettersTToZ) + (MarksToPlus + MarksFromEquals))
  {
    assert CharacterSet() == Run(0, Size);
    RunSplit(0, 37, 51);
    RunSplit(0, 11, 26);
    RunSplit(37, 26, 25);
    DigitsAndSpaceSpelling();
    LettersAToMSpelling();
    LettersNToZSpelling();
    MarksSpelling();
  }

  /** Direction of a tumble: `Left` lowers a code, `Right` raises it. */
  datatype Direction = Left | Right

  // ---------------------------------------------------------------------------
  // The alphabet as a table

  /**
    A direct code table for the alphabet: the code of `c`, or -1 when `c` is
    not a symbol.
   */
  function SymbolCode(c: char): int {
    if '0' <= c <= '9' then (c as int) - ('0' as int)
    else if c == ' ' then 10
    else if 'A' <= c <= 'Z' then 11 + 2 * ((c as int) - ('A' as int))
    else if 'a' <= c <= 'z' then 12 + 2 * ((c as int) - ('a' as int))
    else match c
      case '!' => 63 case '@' => 64 case '#' => 65 case '$' => 66 case '%' => 67
      case '^' => 68 case '&' => 69 case '*' => 70 case '(' => 71 case ')' => 72
      case '_' => 73 case '-' => 74 case '+' => 75 case '=' => 76 case '{' => 77
      case '}' => 78 case '[' => 79 case ']' => 80 case '|' => 81 case ':' => 82
      case ';' => 83 case ',' => 84 case '.' => 85 case '/' => 86 case '?' => 87
      case _ => -1
  }

  /** The table decodes every position of the alphabet back to that position. */
  lemma CodeOfPosition(i: int)
    requires 0 <= i < Size
    ensures |CharacterSet()| == Size
    ensures SymbolCode(CharacterSet()[i]) == i
  {}

  /** Whatever code the table gives a character, the alphabet holds that character there. */
  lemma PositionOfCode(c: char)
    requires SymbolCode(c) != -1
    ensures |CharacterSet()| == Size
    ensures 0 <= SymbolCode(c) < Size && CharacterSet()[SymbolCode(c)] == c
  {}

  /** Whether `c` is one of the alphabet's symbols. */
  predicate IsSymbol(c: char) {
    c in CharacterSet()
  }

  /** The table finds exactly the alphabet's symbols. */
  lemma SymbolCodeFindsSymbols(c: char)
    ensures SymbolCode(c) != -1 <==> IsSymbol(c)
  {
    if SymbolCode(c) != -1 {
      PositionOfCode(c);
    }
    if IsSymbol(c) {
      var k :| 0 <= k < |CharacterSet()| && CharacterSet()[k] == c;
      CodeOfPosition(0);
      CodeOfPosition(k);
    }
  }

  /**
    The code of `character`: its position in the alphabet when it is a single
    alphabet symbol, and -1 for anything else (the source compares the whole
    argument string with each one-symbol string of the alphabet, so "" and
    longer strings are not found either).
   */
  function Ascii(character: string): (r: int)
    ensures -1 <= r < Size
    ensures r >= 0 <==> |character| == 1 && IsSymbol(character[0])
    ensures r >= 0 ==> |CharacterSet()| == Size && CharacterSet()[r] == character[0]
  {
    if |character| == 1 then
      var c := character[0];
      SymbolCodeFindsSymbols(c);
      if SymbolCode(c) != -1 then
        PositionOfCode(c);
        SymbolCode(c)
      else -1
    else -1
  }

  /**
    The source's linear scan: the first position whose one-symbol string equals
    `character`, or -1. Since the symbols are distinct it is the code.
   */
  method AsciiScan(character: string) returns (r: int)
    ensures r == Ascii(character)
  {
    CodeOfPosition(0);
    for n := 0 to |CharacterSet()|
      invariant forall k :: 0 <= k < n ==> [CharacterSet()[k]] != character
    {
      if [CharacterSet()[n]] == character {
        CodeOfPosition(n);
        return n;
      }
    }
    AsciiLocates(character);
    return -1;
  }

  /** A string with a code is the one-symbol string at that code. */
  lemma AsciiLocates(character: string)
    ensures Ascii(character) >= 0 ==> [CharacterSet()[Ascii(character)]] == character
  {}

  /** Every character's code is the one the direct table gives. */
  lemma AsciiIsSymbolCode(c: char)
    ensures Ascii([c]) == SymbolCode(c)
  {}

  /** The one-symbol string at code `value`, or "" when `value` is out of range. */
  function CharacterFor(value: int): (r: string)
    ensures |r| == (if 0 <= value < Size then 1 else 0)
    ensures r != [] ==> Ascii(r) == value
  {
    CodeOfPosition(0);
    if value >= 0 && value < |CharacterSet()| then
      CodeOfPosition(value);
      [CharacterSet()[value]]
    else ""
  }

  /** Every symbol is recovered from its own code. */
  lemma CharacterForAscii(character: string)
    requires Ascii(character) >= 0
    ensures CharacterFor(Ascii(character)) == character
  {}

  // ---------------------------------------------------------------------------
  // Tumbling

  /**
    The code reached from `index` after `amount` single steps in `direction`
    with wrap-around at both ends; an amount of zero or less takes no step.
   */
  function Rotate(direction: Direction, index: int, amount: int): (r: int)
    requires 0 <= index < Size
    ensures 0 <= r < Size
  {
    var steps := if amount > 0 then amount else 0;
    match direction
    case Left => (index - steps) % Size
    case Right => (index + steps) % Size
  }

  /** Euclidean remainder by `Size` is determined by any matching quotient. */
  lemma ModOfDecomposition(x: int, q: int, m: int)
    requires x == q * Size + m && 0 <= m < Size
    ensures x % Size == m
  {}

  /** One place in `direction`, wrapping past either end of the alphabet. */
  function Step(direction: Direction, index: int): int {
    match direction
    case Left => if index - 1 < 0 then Size - 1 else index - 1
    case Right => if index + 1 >= Size then 0 else index + 1
  }

  /** Rotating by one more place is one wrapping step from where the rotation stood. */
  lemma RotateOneMore(direction: Direction, index: int, amount: nat)
    requires 0 <= index < Size
    ensures Rotate(direction, index, amount + 1) == Step(direction, Rotate(direction, index, amount))
  {
    var x := if direction == Left then index - amount else index + amount;
    var q := x / Size;
    var m := x % Size;
    assert x == q * Size + m;
    if direction == Left {
      if m - 1 < 0 {
        ModOfDecomposition(x - 1, q - 1, Size - 1);
      } else {
        ModOfDecomposition(x - 1, q, m - 1);
      }
    } else {
      if m + 1 >= Size {
        ModOfDecomposition(x + 1, q + 1, 0);
      } else {
        ModOfDecomposition(x + 1, q, m + 1);
      }
    }
  }

  /**
    Tumbles `character` by `position` places: a string that is not one alphabet
    symbol comes back unchanged; a symbol moves along the alphabet circularly.
   */
  function Tumble(direction: Direction, character: string, position: int): (r: string)
    ensures Ascii(character) < 0 ==> r == character
    ensures Ascii(character) >= 0 ==> |r| == 1 && Ascii(r) == Rotate(direction, Ascii(character), position)
    ensures |r| == |character|
  {
    var index := Ascii(character);
    if index < 0 then character
    else CharacterFor(Rotate(direction, index, position))
  }

  /**
    The loop of `tumble`: it walks a code one place at a time, `position`
    times, wrapping past either end, and ends where the modular rotation does.
   */
  method Advance(direction: Direction, start: int, position: int) returns (index: int)
    requires 0 <= start < Size
    ensures index == Rotate(direction, start, position)
  {
    CodeOfPosition(0);
    index := start;
    var counter := position;
    while counter > 0
      invariant 0 <= index < Size
      invariant position > 0 ==> 0 <= counter <= position
      invariant position <= 0 ==> counter == position
      invariant index == Rotate(direction, start, position - counter)
    {
      RotateOneMore(direction, start, position - counter);
      match direction {
        case Left =>
          index := index - 1;
          if index < 0 {
            index := |CharacterSet()| - 1;
          }
        case Right =>
          index := index + 1;
          if index >= |CharacterSet()| {
            index := 0;
          }
      }
      counter := counter - 1;
    }
  }

  /** `tumble` as the source computes it, by stepping rather than by modular arithmetic. */
  method TumbleStepwise(direction: Direction, character: string, position: int) returns (r: string)
    ensures r == Tumble(direction, character, position)
  {
    var index := Ascii(character);
    if index < 0 {
      return character;
    }
    index := Advance(direction, index, position);
    r := CharacterFor(index);
  }

  /** Rotating left undoes rotating right by the same amount, and vice versa. */
  lemma RotateInverse(index: int, amount: int)
    requires 0 <= index < Size
    ensures Rotate(Left, Rotate(Right, index, amount), amount) == index
    ensures Rotate(Right, Rotate(Left, index, amount), amount) == index
  {
    var s := if amount > 0 then amount else 0;
    var right := Rotate(Right, index, amount);
    var left := Rotate(Left, index, amount);
    var qr := (index + s) / Size;
    assert index + s == qr * Size + right;
    ModOfDecomposition(right - s, -qr, index);
    var ql := (index - s) / Size;
    assert index - s == ql * Size + left;
    ModOfDecomposition(left + s, -ql, index);
  }

  /** A tumble left undoes a tumble right by the same amount, for every string. */
  lemma TumbleRoundTrip(character: string, position: int)
    ensures Tumble(Left, Tumble(Right, character, position), position) == character
    ensures Tumble(Right, Tumble(Left, character, position), position) == character
  {
    if Ascii(character) >= 0 {
      RotateInverse(Ascii(character), position);
      CharacterForAscii(character);
      CharacterForAscii(Tumble(Right, character, position));
      CharacterForAscii(Tumble(Left, character, position));
    }
  }

  /** A tumble by zero or fewer places changes nothing. */
  lemma TumbleByNothing(direction: Direction, character: string, position: int)
    requires position <= 0
    ensures Tumble(direction, character, position) == character
  {
    var index := Ascii(character);
    if index >= 0 {
      ModOfDecomposition(index, 0, index);
      assert Rotate(direction, index, position) == index;
      CharacterForAscii(character);
    }
  }

  /** Moving right from the last symbol wraps to the first, and left from the first to the last. */
  lemma TumbleWrapsAround()
    ensures Tumble(Right, CharacterFor(Size - 1), 1) == CharacterFor(0)
    ensures Tumble(Left, CharacterFor(0), 1) == CharacterFor(Size - 1)
  {}

  // ---------------------------------------------------------------------------
  // Whole strings

  /**
    Tumbles each character of `text` by its own position in `direction`,
    concatenating the results in order, as the loops of `obfuscate` and
    `deobfuscate` do.
   */
  function Roll(direction: Direction, text: string): (r: string)
    ensures |r| == |text|
    ensures forall n :: 0 <= n < |text| ==> [r[n]] == Tumble(direction, [text[n]], n)
  {
    if |text| == 0 then ""
    else Roll(direction, text[..|text| - 1]) + Tumble(direction, [text[|text| - 1]], |text| - 1)
  }

  /** Obfuscates `text`: each character is tumbled right by its position. */
  function Obfuscate(text: string): (r: string)
    ensures |r| == |text|
    ensures |text| > 0 ==> r[0] == text[0]
    ensures forall n :: 0 <= n < |text| && !IsSymbol(text[n]) ==> r[n] == text[n]
    ensures forall n :: 0 <= n < |text| ==> (IsSymbol(r[n]) <==> IsSymbol(text[n]))
  {
    var r := Roll(Right, text);
    if |text| > 0 then
      TumbleByNothing(Right, [text[0]], 0);
      r
    else r
  }

  /** Deobfuscates `text`: each character is tumbled left by its position. */
  function Deobfuscate(text: string): (r: string)
    ensures |r| == |text|
    ensures |text| > 0 ==> r[0] == text[0]
    ensures forall n :: 0 <= n < |text| && !IsSymbol(text[n]) ==> r[n] == text[n]
    ensures forall n :: 0 <= n < |text| ==> (IsSymbol(r[n]) <==> IsSymbol(text[n]))
  {
    var r := Roll(Left, text);
    if |text| > 0 then
      TumbleByNothing(Left, [text[0]], 0);
      r
    else r
  }

  /** Deobfuscation inverts obfuscation, and obfuscation inverts deobfuscation, on every string. */
  lemma ObfuscateRoundTrip(text: string)
    ensures Deobfuscate(Obfuscate(text)) == text
    ensures Obfuscate(Deobfuscate(text)) == text
  {
    var there := Obfuscate(text);
    var back := Deobfuscate(there);
    forall n | 0 <= n < |text|
      ensures back[n] == text[n]
    {
      assert [there[n]] == Tumble(Right, [text[n]], n);
      assert [back[n]] == Tumble(Left, [there[n]], n);
      TumbleRoundTrip([text[n]], n);
    }
    var there' := Deobfuscate(text);
    var back' := Obfuscate(there');
    forall n | 0 <= n < |text|
      ensures back'[n] == text[n]
    {
      assert [there'[n]] == Tumble(Left, [text[n]], n);
      assert [back'[n]] == Tumble(Right, [there'[n]], n);
      TumbleRoundTrip([text[n]], n);
    }
  }

  // ---------------------------------------------------------------------------
  // Checksum

  /** The sum of the positions 0, 1, ..., n - 1: the most any checksum weight can add up to. */
  function PositionSum(n: nat): nat {
    if n == 0 then 0 else PositionSum(n - 1) + (n - 1)
  }

  /** The weight a character at position `n` adds lies between -n and (Size - 1) * n. */
  lemma WeightBounds(code: int, n: int)
    requires -1 <= code < Size && 0 <= n
    ensures -n <= code * n <= (Size - 1) * n
    ensures code >= 0 ==> code * n >= 0
  {
    ScaleMonotone(-1, code, n);
    ScaleMonotone(code, Size - 1, n);
    if code >= 0 {
      ScaleMonotone(0, code, n);
    }
  }

  /** Multiplying by a non-negative factor keeps the order. */
  lemma ScaleMonotone(a: int, b: int, n: int)
    requires a <= b && 0 <= n
    ensures a * n <= b * n
  {
    assert b * n - a * n == (b - a) * n;
  }

  /**
    The checksum of `text`: the sum over every position `n` of the code of
    the character there times `n`; a character outside the alphabet counts
    with code -1. There is no modulus.
   */
  function Checksum(text: string): (r: int)
    ensures -(PositionSum(|text|) as int) <= r <= (Size - 1) * PositionSum(|text|)
    ensures (forall n :: 0 <= n < |text| ==> IsSymbol(text[n])) ==> r >= 0
  {
    if |text| == 0 then 0
    else
      var n := |text| - 1;
      WeightBounds(Ascii([text[n]]), n);
      Checksum(text[..n]) + Ascii([text[n]]) * n
  }

  /** Changing the character at position `n` moves the checksum by the code difference times `n`. */
  lemma {:induction false} ChecksumAfterEdit(text: string, n: int, c: char)
    requires 0 <= n < |text|
    ensures Checksum(text[n := c]) == Checksum(text) + Ascii([c]) * n - Ascii([text[n]]) * n
    decreases |text|
  {
    var last := |text| - 1;
    var edited := text[n := c];
    if n == last {
      assert edited[..last] == text[..last];
      assert edited[last] == c;
    } else {
      assert edited[..last] == text[..last][n := c];
      assert edited[last] == text[last];
      ChecksumAfterEdit(text[..last], n, c);
    }
  }

  /** Whether `checksum` is the checksum of `text`. */
  function Verify(text: string, checksum: int): (ok: bool)
    ensures ok <==> Checksum(text) == checksum
    ensures ok ==> -(PositionSum(|text|) as int) <= checksum <= (Size - 1) * PositionSum(|text|)
  {
    Checksum(text) == checksum
  }

  /**
    A checksum taken before obfuscation verifies the text recovered by
    deobfuscation exactly when it verifies the original.
   */
  lemma VerifyAfterRoundTrip(text: string, checksum: int)
    ensures Verify(Deobfuscate(Obfuscate(text)), checksum) <==> Verify(text, checksum)
    ensures Verify(Deobfuscate(Obfuscate(text)), Checksum(text))
  {
    ObfuscateRoundTrip(text);
  }

  /**
    Replacing one character after position 0 by one with a different code is
    always detected.
   */
  lemma VerifyDetectsSingleEdit(text: string, n: int, c: char)
    requires 0 < n < |text| && Ascii([c]) != Ascii([text[n]])
    ensures !Verify(text[n := c], Checksum(text))
  {
    ChecksumAfterEdit(text, n, c);
    DistinctWeights(Ascii([c]), Ascii([text[n]]), n);
  }

  /** The first character carries weight zero: replacing it is never detected. */
  lemma FirstCharacterUnchecked(text: string, c: char)
    requires |text| > 0
    ensures Verify(text[0 := c], Checksum(text))
  {
    ChecksumAfterEdit(text, 0, c);
  }

  /** Different codes at the same non-zero position carry different weights. */
  lemma DistinctWeights(a: int, b: int, n: int)
    requires a != b && n > 0
    ensures a * n != b * n
  {
    if a < b {
      assert a * n < b * n;
    } else {
      assert a * n > b * n;
    }
  }

  /** The behaviour on the empty string and on a few fixed inputs. */
  lemma Examples()
    ensures Ascii("0") == 0 && Ascii("9") == 9 && Ascii(" ") == 10 && Ascii("A") == 11
    ensures Ascii("") == -1 && Ascii("AB") == -1 && Ascii("~") == -1
    ensures CharacterFor(-1) == "" && CharacterFor(Size) == ""
    ensures Obfuscate("") == "" && Checksum("") == 0 && Verify("", 0)
    ensures Obfuscate("AB") == "Ab"
  {
    AsciiIsSymbolCode('0');
    AsciiIsSymbolCode('9');
    AsciiIsSymbolCode(' ');
    AsciiIsSymbolCode('A');
    AsciiIsSymbolCode('~');
    AsciiIsSymbolCode('B');
    AsciiIsSymbolCode('b');
    assert Obfuscate("AB")[1] == 'b' by {
      assert ['b'] == Tumble(Right, ['B'], 1);
    }
  }
}

=== FILE: string_extensions.dfy ===
/**
  Pure string helpers of the `String` extension: `truncated(limit:position:leader:)`
  and the clean-up `typeName(of:)` applies to a reflected type name.
 */
module StringExtensions {

  /** Where `truncated` cuts a string that is too long. */
  datatype TruncationPosition = Head | Middle | Tail

  /** `ceil(x / 2)` for a non-negative `x`: the larger half. */
  function HalfUp(x: nat): (h: nat)
    ensures h + HalfDown(x) == x && HalfDown(x) <= h <= HalfDown(x) + 1
  {
    (x + 1) / 2
  }

  /** `floor(x / 2)` for a non-negative `x`: the smaller half. */
  function HalfDown(x: nat): (h: nat)
    ensures 2 * h <= x < 2 * h + 2
  {
    x / 2
  }

  /**
    `truncated(limit:position:leader:)`. A string of at most `limit` characters
    is returned as it is. Otherwise `Tail` keeps the first `limit` characters
    and appends `leader`, `Head` puts `leader` before the last `limit`
    characters, and `Middle` keeps the larger half of `limit - |leader|` at the
    front and the smaller half at the back, with `leader` between them.
    The source traps on a negative `prefix`/`suffix` count, hence the requires.
   */
  function Truncated(s: string, limit: int, position: TruncationPosition := Tail, leader: string := "..."): (r: string)
    requires |s| > limit ==> 0 <= limit && (position == Middle ==> |leader| <= limit)
    ensures |s| <= limit ==> r == s
    ensures |s| > limit && position == Tail ==>
              |r| == limit + |leader| && r[..limit] == s[..limit] && r[limit..] == leader
    ensures |s| > limit && position == Head ==>
              |r| == |leader| + limit && r[..|leader|] == leader && r[|leader|..] == s[|s| - limit..]
    ensures |s| > limit && position == Middle ==>
              var front := HalfUp(limit - |leader|);
              var back := HalfDown(limit - |leader|);
              && |r| == limit
              && r[..front] == s[..front]
              && r[front..front + |leader|] == leader
              && r[front + |leader|..] == s[|s| - back..]
  {
    if |s| <= limit then s
    else
      match position
      case Head => leader + s[|s| - limit..]
      case Middle =>
        var headCharactersCount := HalfUp(limit - |leader|);
        var tailCharactersCount := HalfDown(limit - |leader|);
        s[..headCharactersCount] + leader + s[|s| - tailCharactersCount..]
      case Tail => s[..limit] + leader
  }

  /** The defaults truncate at the tail with "...". */
  lemma TruncatedDefaults(s: string, limit: int)
    requires |s| > limit >= 0
    ensures Truncated(s, limit) == s[..limit] + "..."
  {}

  /** With a non-empty leader, tail truncation can return a string longer than its input. */
  lemma TailTruncationCanLengthen()
    ensures Truncated("abcde", 4) == "abcd..."
    ensures |Truncated("abcde", 4)| > |"abcde"|
  {}

  /** Middle truncation never exceeds the limit, whatever the string. */
  lemma MiddleTruncationFits(s: string, limit: int, leader: string)
    requires |leader| <= limit
    ensures |Truncated(s, limit, Middle, leader)| <= limit
  {}

  // ---------------------------------------------------------------------------
  // Type-name clean-up

  /** `replacingOccurrences(of:with:)` for a single character. */
  function ReplaceAll(s: string, from: char, to: char): (r: string)
    ensures |r| == |s|
    ensures forall i :: 0 <= i < |s| && s[i] != from ==> r[i] == s[i]
    ensures forall i :: 0 <= i < |s| && s[i] == from ==> r[i] == to
    ensures from != to ==> from !in r
  {
    if |s| == 0 then ""
    else [if s[0] == from then to else s[0]] + ReplaceAll(s[1..], from, to)
  }

  /** Joins `parts` with `sep` between neighbours. */
  function Join(parts: seq<string>, sep: char): string
    requires |parts| >= 1
  {
    if |parts| == 1 then parts[0]
    else parts[0] + [sep] + Join(parts[1..], sep)
  }

  /**
    `components(separatedBy:)` for a single-character separator: the maximal
    runs between separators, including empty runs at either end.
   */
  function Components(s: string, sep: char): (parts: seq<string>)
    ensures |parts| >= 1
    ensures forall i :: 0 <= i < |parts| ==> sep !in parts[i]
    ensures Join(parts, sep) == s
    ensures sep in s <==> |parts| >= 2
  {
    if |s| == 0 then [""]
    else
      var rest := Components(s[1..], sep);
      if s[0] == sep then
        assert [s[0]] + s[1..] == s;
        [""] + rest
      else
        var parts := [[s[0]] + rest[0]] + rest[1..];
        assert parts[1..] == rest[1..];
        assert [s[0]] + s[1..] == s;
        if |rest| == 1 then
          parts
        else
          assert Join(rest, sep) == rest[0] + [sep] + Join(rest[1..], sep);
          assert Join(parts, sep) == ([s[0]] + rest[0]) + [sep] + Join(rest[1..], sep);
          parts
  }

  /** The last of several joined parts is a suffix of the join, right after a separator. */
  lemma {:induction false} JoinEndsWithLast(parts: seq<string>, sep: char)
    requires |parts| >= 2
    ensures var j := Join(parts, sep);
            var last := parts[|parts| - 1];
            |j| >= |last| + 1 && j[|j| - |last|..] == last && j[|j| - |last| - 1] == sep
    decreases |parts|
  {
    if |parts| > 2 {
      JoinEndsWithLast(parts[1..], sep);
    }
  }

  /**
    The clean-up of a type name: every `<` becomes `(` and every `>` becomes
    `)`, then, when the name has a `.`, only the text after the last `.` is kept.
   */
  function CleanTypeName(name: string): (r: string)
    ensures '<' !in r && '>' !in r && '.' !in r
    ensures var cleaned := ReplaceAll(ReplaceAll(name, '<', '('), '>', ')');
            && |r| <= |cleaned|
            && cleaned[|cleaned| - |r|..] == r
            && ('.' in cleaned ==> cleaned[|cleaned| - |r| - 1] == '.')
            && ('.' !in cleaned ==> r == cleaned)
  {
    var cleaned := ReplaceAll(ReplaceAll(name, '<', '('), '>', ')');
    if '.' in cleaned then
      var parts := Components(cleaned, '.');
      JoinEndsWithLast(parts, '.');
      parts[|parts| - 1]
    else
      cleaned
  }

  /** The first replacement turns the opening angle bracket into a parenthesis. */
  lemma OpeningBracketExample()
    ensures ReplaceAll("M.A<B>", '<', '(') == "M.A(B>"
  {
    var name := "M.A<B>";
    assert ReplaceAll(name[5..], '<', '(') == ">";
    assert ReplaceAll(name[4..], '<', '(') == "B>";
    assert ReplaceAll(name[3..], '<', '(') == "(B>";
    assert ReplaceAll(name[2..], '<', '(') == "A(B>";
    assert ReplaceAll(name[1..], '<', '(') == ".A(B>";
  }

  /** The second replacement turns the closing angle bracket into a parenthesis. */
  lemma ClosingBracketExample()
    ensures ReplaceAll("M.A(B>", '>', ')') == "M.A(B)"
  {
    var half := "M.A(B>";
    assert ReplaceAll(half[5..], '>', ')') == ")";
    assert ReplaceAll(half[4..], '>', ')') == "B)";
    assert ReplaceAll(half[3..], '>', ')') == "(B)";
    assert ReplaceAll(half[2..], '>', ')') == "A(B)";
    assert ReplaceAll(half[1..], '>', ')') == ".A(B)";
  }

  /** Splitting at the dot gives the module and the type. */
  lemma SplitAtDotExample()
    ensures Components("M.A(B)", '.') == ["M", "A(B)"]
  {
    var cleaned := "M.A(B)";
    assert Components(cleaned[5..], '.') == [")"];
    assert Components(cleaned[4..], '.') == ["B)"];
    assert Components(cleaned[3..], '.') == ["(B)"];
    assert Components(cleaned[2..], '.') == ["A(B)"];
    assert Components(cleaned[1..], '.') == ["", "A(B)"];
    var rest := Components(cleaned[1..], '.');
    assert [cleaned[0]] + rest[0] == "M";
    assert rest[1..] == ["A(B)"];
  }

  /** A module-qualified generic name loses its module prefix and its angle brackets. */
  lemma CleanTypeNameExample()
    ensures CleanTypeName("M.A<B>") == "A(B)"
  {
    OpeningBracketExample();
    ClosingBracketExample();
    var cleaned := "M.A(B)";
    assert cleaned[1] == '.';
    SplitAtDotExample();
  }
}

=== FILE: title_case.dfy ===
/**
  `String.titlecased()` over ASCII text: a space goes in front of every
  capital letter after the first character, then the first character and
  every character that follows a space are upper-cased.
 */
module TitleCase {

  /** Every character is in the 7-bit ASCII range. */
  predicate IsAscii(s: string) {
    forall i :: 0 <= i < |s| ==> s[i] as int < 128
  }

  /** A capital letter `A` to `Z`: what the pattern `(?=\S)[A-Z]` matches. */
  predicate IsCapital(c: char) {
    'A' <= c <= 'Z'
  }

  /** A lower-case letter `a` to `z`. */
  predicate IsLower(c: char) {
    'a' <= c <= 'z'
  }

  /** ASCII upper-casing of one character. */
  function ToUpper(c: char): (u: char)
    ensures !IsLower(u)
    ensures IsLower(c) ==> IsCapital(u) && u as int == c as int - 32
    ensures !IsLower(c) ==> u == c
  {
    if IsLower(c) then (c as int - 32) as char else c
  }

  /** `uppercased()` on ASCII text. */
  function Uppercased(s: string): (r: string)
    ensures |r| == |s|
    ensures forall i :: 0 <= i < |s| ==> r[i] == ToUpper(s[i])
  {
    if |s| == 0 then "" else [ToUpper(s[0])] + Uppercased(s[1..])
  }

  /** A capital at position `i` of `r`, if there is one after the first, has a space just before it. */
  predicate SpacedBefore(r: string, i: int) {
    1 <= i < |r| && IsCapital(r[i]) ==> r[i - 1] == ' '
  }

  /** A character at position `i` of `r` that opens a word is not lower-case. */
  predicate OpensWordUpper(r: string, i: int) {
    0 <= i < |r| && (i == 0 || r[i - 1] == ' ') ==> !IsLower(r[i])
  }

  /** The number of capitals at positions `from` and later. */
  function CapitalsFrom(s: string, from: nat): nat
    decreases |s| - from
  {
    if from >= |s| then 0
    else (if IsCapital(s[from]) then 1 else 0) + CapitalsFrom(s, from + 1)
  }

  /** `s` with every space removed: the text the reader sees, minus its spacing. */
  function WithoutSpaces(s: string): (r: string)
    ensures ' ' !in r
  {
    if |s| == 0 then ""
    else (if s[0] == ' ' then "" else [s[0]]) + WithoutSpaces(s[1..])
  }

  /**
    The regular-expression pass from position `from` on: every capital gets a
    space in front of it.
   */
  function SpaceCapitalsFrom(s: string, from: nat): (r: string)
    requires from <= |s|
    ensures |r| == |s| - from + CapitalsFrom(s, from)
    ensures forall i :: SpacedBefore(r, i)
    ensures from < |s| ==> r[0] == if IsCapital(s[from]) then ' ' else s[from]
    decreases |s| - from
  {
    if from == |s| then ""
    else
      var rest := SpaceCapitalsFrom(s, from + 1);
      var here := if IsCapital(s[from]) then " " + [s[from]] else [s[from]];
      SpacedJoin(here, rest);
      here + rest
  }

  /** Joining two spaced texts keeps the spacing when the second does not start with a capital. */
  lemma SpacedJoin(a: string, b: string)
    requires forall i :: SpacedBefore(a, i)
    requires forall i :: SpacedBefore(b, i)
    requires |b| > 0 ==> !IsCapital(b[0])
    ensures forall i :: SpacedBefore(a + b, i)
  {
    forall i
      ensures SpacedBefore(a + b, i)
    {
      if 1 <= i < |a| {
        assert SpacedBefore(a, i);
      } else if |a| < i < |a + b| {
        assert SpacedBefore(b, i - |a|);
      }
    }
  }

  /** Apart from the spaces it adds, the spacing pass gives back the text it scanned. */
  lemma {:induction false} SpacingKeepsText(s: string, from: nat)
    requires from <= |s|
    ensures WithoutSpaces(SpaceCapitalsFrom(s, from)) == WithoutSpaces(s[from..])
    decreases |s| - from
  {
    if from < |s| {
      SpacingKeepsText(s, from + 1);
      var rest := SpaceCapitalsFrom(s, from + 1);
      var here := if IsCapital(s[from]) then " " + [s[from]] else [s[from]];
      WithoutSpacesAppend(here, rest);
      assert s[from..] == [s[from]] + s[from + 1..];
      WithoutSpacesAppend([s[from]], s[from + 1..]);
    }
  }

  lemma {:induction false} WithoutSpacesAppend(a: string, b: string)
    ensures WithoutSpaces(a + b) == WithoutSpaces(a) + WithoutSpaces(b)
    decreases |a|
  {
    if |a| == 0 {
      assert a + b == b;
    } else {
      var head := if a[0] == ' ' then "" else [a[0]];
      assert (a + b)[0] == a[0];
      assert (a + b)[1..] == a[1..] + b;
      WithoutSpacesAppend(a[1..], b);
      calc {
        WithoutSpaces(a + b);
        head + WithoutSpaces(a[1..] + b);
        head + (WithoutSpaces(a[1..]) + WithoutSpaces(b));
        (head + WithoutSpaces(a[1..])) + WithoutSpaces(b);
      }
    }
  }

  /**
    The capitalising pass over the spaced text, from position `from` on,
    where `previous` is the character already written before it. As in the
    source, the test looks at the text as already rewritten; since
    upper-casing maps a space to itself and nothing else to a space, this
    is the same as looking at the input.
   */
  function CapitalizeFrom(t: string, from: nat, previous: char): (r: string)
    requires from <= |t|
    requires from > 0 ==> (previous == ' ' <==> t[from - 1] == ' ')
    ensures |r| == |t| - from
    ensures forall i :: from <= i < |t| && (i == 0 || t[i - 1] == ' ') ==> r[i - from] == ToUpper(t[i])
    ensures forall i :: from <= i < |t| && i > 0 && t[i - 1] != ' ' ==> r[i - from] == t[i]
    decreases |t| - from
  {
    if from == |t| then ""
    else
      var c := if from == 0 || previous == ' ' then ToUpper(t[from]) else t[from];
      [c] + CapitalizeFrom(t, from + 1, c)
  }

  /** The capitalising pass changes nothing but letter case. */
  lemma CapitalizeChangesOnlyCase(t: string)
    ensures forall i :: 0 <= i < |t| ==> ToUpper(CapitalizeFrom(t, 0, ' ')[i]) == ToUpper(t[i])
  {
    var r := CapitalizeFrom(t, 0, ' ');
    forall i | 0 <= i < |t|
      ensures ToUpper(r[i]) == ToUpper(t[i])
    {
      if i == 0 || t[i - 1] == ' ' {
        assert r[i] == ToUpper(t[i]);
      } else {
        assert r[i] == t[i];
      }
    }
  }

  /**
    After the capitalising pass no word starts in lower case, and a text
    whose capitals all follow a space keeps that shape.
   */
  lemma CapitalizeKeepsSpacing(t: string)
    requires forall i :: SpacedBefore(t, i)
    ensures forall i :: OpensWordUpper(CapitalizeFrom(t, 0, ' '), i)
    ensures forall i :: SpacedBefore(CapitalizeFrom(t, 0, ' '), i)
  {
    var r := CapitalizeFrom(t, 0, ' ');
    forall i
      ensures OpensWordUpper(r, i) && SpacedBefore(r, i)
    {
      if 1 <= i < |r| {
        assert SpacedBefore(t, i);
        if i - 1 == 0 || t[i - 2] == ' ' {
          assert r[i - 1] == ToUpper(t[i - 1]);
        } else {
          assert r[i - 1] == t[i - 1];
        }
      }
    }
  }

  /** Strings that differ only in letter case keep the same letters once spaces are dropped. */
  lemma {:induction false} CaseOnlyChange(r: string, t: string)
    requires |r| == |t| && forall i :: 0 <= i < |t| ==> ToUpper(r[i]) == ToUpper(t[i])
    ensures Uppercased(WithoutSpaces(r)) == Uppercased(WithoutSpaces(t))
    decreases |t|
  {
    if |t| > 0 {
      assert ToUpper(r[0]) == ToUpper(t[0]);
      CaseOnlyChange(r[1..], t[1..]);
      var rh := if r[0] == ' ' then "" else [r[0]];
      var th := if t[0] == ' ' then "" else [t[0]];
      UppercasedAppend(rh, WithoutSpaces(r[1..]));
      UppercasedAppend(th, WithoutSpaces(t[1..]));
    }
  }

  lemma UppercasedAppend(a: string, b: string)
    ensures Uppercased(a + b) == Uppercased(a) + Uppercased(b)
  {
    var l := Uppercased(a + b);
    var m := Uppercased(a) + Uppercased(b);
    assert |l| == |m|;
    forall i | 0 <= i < |l|
      ensures l[i] == m[i]
    {
      if i < |a| {
        assert (a + b)[i] == a[i];
      } else {
        assert (a + b)[i] == b[i - |a|];
      }
    }
  }

  /** `titlecased()`, on ASCII input. */
  function Titlecased(s: string): (r: string)
    requires IsAscii(s)
    ensures |s| <= 1 ==> r == Uppercased(s)
    ensures |r| == |s| + CapitalsFrom(s, 1)
    ensures forall i :: OpensWordUpper(r, i)
    ensures forall i :: SpacedBefore(r, i)
    ensures Uppercased(WithoutSpaces(r)) == Uppercased(WithoutSpaces(s))
  {
    if |s| <= 1 then
      assert |s| == 1 ==> CapitalsFrom(s, 1) == 0;
      assert Uppercased(Uppercased(s)) == Uppercased(s);
      CaseOnlyChange(Uppercased(s), s);
      Uppercased(s)
    else
      var spaced := [s[0]] + SpaceCapitalsFrom(s, 1);
      var r := CapitalizeFrom(spaced, 0, ' ');
      assert s == [s[0]] + s[1..];
      SpacingKeepsText(s, 1);
      WithoutSpacesAppend([s[0]], SpaceCapitalsFrom(s, 1));
      WithoutSpacesAppend([s[0]], s[1..]);
      CapitalizeChangesOnlyCase(spaced);
      CaseOnlyChange(r, spaced);
      SpacedJoin([s[0]], SpaceCapitalsFrom(s, 1));
      CapitalizeKeepsSpacing(spaced);
      r
  }

  /** Fewer capitals remain the later the count starts. */
  lemma {:induction false} CapitalsFromShrinks(s: string, a: nat, b: nat)
    requires a <= b
    ensures CapitalsFrom(s, b) <= CapitalsFrom(s, a)
    decreases b - a
  {
    if a < b && a < |s| {
      CapitalsFromShrinks(s, a + 1, b);
    }
  }

  /**
    Where the spacing pass started at `from` writes character `i` of `s`:
    after the characters before it and the spaces added for the capitals
    from `from` to `i`.
   */
  function SpacedIndex(s: string, from: nat, i: nat): int {
    (i - from) + CapitalsFrom(s, from) - CapitalsFrom(s, i + 1)
  }

  /**
    The spacing pass writes every scanned character at its `SpacedIndex`,
    with a space just before it when it is a capital.
   */
  lemma {:induction false} SpacingPlacesCharacter(s: string, from: nat, i: nat)
    requires from <= i < |s|
    ensures 0 <= SpacedIndex(s, from, i) < |SpaceCapitalsFrom(s, from)|
    ensures SpaceCapitalsFrom(s, from)[SpacedIndex(s, from, i)] == s[i]
    ensures IsCapital(s[i]) ==>
              SpacedIndex(s, from, i) >= 1 && SpaceCapitalsFrom(s, from)[SpacedIndex(s, from, i) - 1] == ' '
    decreases |s| - from
  {
    var here := if IsCapital(s[from]) then " " + [s[from]] else [s[from]];
    var rest := SpaceCapitalsFrom(s, from + 1);
    assert SpaceCapitalsFrom(s, from) == here + rest;
    if i > from {
      SpacingPlacesCharacter(s, from + 1, i);
      CapitalsFromShrinks(s, from + 1, i + 1);
      assert SpacedIndex(s, from, i) == |here| + SpacedIndex(s, from + 1, i);
    }
  }

  /** Where `titlecased()` writes character `i` of `s`: after `i` characters and one space per capital at positions 1 to `i`. */
  function Placed(s: string, i: nat): int {
    i + CapitalsFrom(s, 1) - CapitalsFrom(s, i + 1)
  }

  /**
    Every input character reappears at `Placed(s, i)`, changed at most in
    case; a capital after the first character stays as it is, with a space
    just before it.
   */
  lemma TitlecasedPlacesCharacter(s: string, i: nat)
    requires IsAscii(s) && i < |s|
    ensures i <= Placed(s, i) < |Titlecased(s)|
    ensures ToUpper(Titlecased(s)[Placed(s, i)]) == ToUpper(s[i])
    ensures 1 <= i && IsCapital(s[i]) ==>
              Titlecased(s)[Placed(s, i)] == s[i] && Titlecased(s)[Placed(s, i) - 1] == ' '
  {
    var r := Titlecased(s);
    CapitalsFromShrinks(s, 1, i + 1);
    if |s| <= 1 {
      assert Placed(s, i) == 0;
    } else {
      var spaced := [s[0]] + SpaceCapitalsFrom(s, 1);
      assert r == CapitalizeFrom(spaced, 0, ' ');
      CapitalizeChangesOnlyCase(spaced);
      var p := Placed(s, i);
      if i == 0 {
        assert p == 0 && spaced[0] == s[0];
      } else {
        SpacingPlacesCharacter(s, 1, i);
        assert p == 1 + SpacedIndex(s, 1, i);
        assert spaced[p] == s[i];
        assert ToUpper(r[p]) == ToUpper(spaced[p]);
        if IsCapital(s[i]) {
          assert spaced[p - 1] == ' ';
          assert ToUpper(r[p - 1]) == ToUpper(spaced[p - 1]);
        }
      }
    }
  }

  /** A single character is simply upper-cased. */
  lemma SingleCharacterUppercased()
    ensures Titlecased("a") == "A"
    ensures Titlecased("") == ""
  {
  }

  // ---------------------------------------------------------------------------
  // Piecewise reasoning, for the documented examples

  /** With no capital from `from` on, the spacing pass copies the rest of the text. */
  lemma {:induction false} NoCapitalsUnspaced(s: string, from: nat)
    requires from <= |s|
    requires forall i :: from <= i < |s| ==> !IsCapital(s[i])
    ensures SpaceCapitalsFrom(s, from) == s[from..]
    decreases |s| - from
  {
    if from < |s| {
      NoCapitalsUnspaced(s, from + 1);
      assert s[from..] == [s[from]] + s[from + 1..];
    }
  }

  /** The spacing pass reads only the text from its start position on. */
  lemma {:induction false} SpaceCapitalsShift(a: string, b: string, k: nat)
    requires k <= |b|
    ensures SpaceCapitalsFrom(a + b, |a| + k) == SpaceCapitalsFrom(b, k)
    decreases |b| - k
  {
    if k < |b| {
      SpaceCapitalsShift(a, b, k + 1);
      assert (a + b)[|a| + k] == b[k];
    }
  }

  /** The spacing pass over two texts joined is the two passes joined. */
  lemma {:induction false} SpaceCapitalsAppend(a: string, b: string, from: nat)
    requires from <= |a|
    ensures SpaceCapitalsFrom(a + b, from) == SpaceCapitalsFrom(a, from) + SpaceCapitalsFrom(b, 0)
    decreases |a| - from
  {
    if from == |a| {
      SpaceCapitalsShift(a, b, 0);
    } else {
      SpaceCapitalsAppend(a, b, from + 1);
      assert (a + b)[from] == a[from];
      var here := if IsCapital(a[from]) then " " + [a[from]] else [a[from]];
      var x, y := SpaceCapitalsFrom(a, from + 1), SpaceCapitalsFrom(b, 0);
      assert SpaceCapitalsFrom(a + b, from) == here + (x + y);
      assert here + (x + y) == (here + x) + y;
    }
  }

  /** A word whose only capital is its first letter gets one space in front. */
  lemma CapitalWordSpaced(w: string)
    requires |w| > 0 && IsCapital(w[0])
    requires forall i :: 1 <= i < |w| ==> !IsCapital(w[i])
    ensures SpaceCapitalsFrom(w, 0) == " " + w
  {
    NoCapitalsUnspaced(w, 1);
    assert w == [w[0]] + w[1..];
  }

  /** `r` is `t` with its first character and every character after a space upper-cased. */
  predicate CapitalizedAs(t: string, r: string) {
    && |r| == |t|
    && (|t| > 0 ==> r[0] == ToUpper(t[0]))
    && forall i :: 0 < i < |t| ==> r[i] == (if t[i - 1] == ' ' then ToUpper(t[i]) else t[i])
  }

  /** The capitalising pass gives the one text that `CapitalizedAs` allows. */
  lemma CapitalizeIsCapitalizedAs(t: string, r: string)
    requires CapitalizedAs(t, r)
    ensures CapitalizeFrom(t, 0, ' ') == r
  {
    var c := CapitalizeFrom(t, 0, ' ');
    forall i | 0 <= i < |t|
      ensures c[i] == r[i]
    {
      if i == 0 || t[i - 1] == ' ' {
        assert c[i] == ToUpper(t[i]);
      } else {
        assert c[i] == t[i];
      }
    }
  }

  /** Capitalised pieces join up when the second one starts with a space. */
  lemma CapitalizedAppend(x: string, rx: string, y: string, ry: string)
    requires CapitalizedAs(x, rx) && CapitalizedAs(y, ry)
    requires |y| > 0 && y[0] == ' '
    ensures CapitalizedAs(x + y, rx + ry)
  {
    var t, r := x + y, rx + ry;
    if |x| > 0 {
      assert t[0] == x[0] && r[0] == rx[0];
    }
    forall i | 0 < i < |t|
      ensures r[i] == (if t[i - 1] == ' ' then ToUpper(t[i]) else t[i])
    {
      if i < |x| {
        assert t[i] == x[i] && t[i - 1] == x[i - 1] && r[i] == rx[i];
      } else if i == |x| {
        assert t[i] == ' ' && r[i] == ry[0];
      } else {
        var j := i - |x|;
        assert t[i] == y[j] && t[i - 1] == y[j - 1] && r[i] == ry[j];
      }
    }
  }

  /** A first word without spaces: only its first letter is upper-cased. */
  lemma FirstWordCapitalized(w: string)
    requires |w| > 0 && forall i :: 0 <= i < |w| ==> w[i] != ' '
    ensures CapitalizedAs(w, [ToUpper(w[0])] + w[1..])
  {
    var r := [ToUpper(w[0])] + w[1..];
    forall i | 0 < i < |w|
      ensures r[i] == (if w[i - 1] == ' ' then ToUpper(w[i]) else w[i])
    {
      assert w[i - 1] != ' ' && r[i] == w[i];
    }
  }

  /** A later word, with the space before it: only its first letter is upper-cased. */
  lemma SpacedWordCapitalized(w: string)
    requires |w| > 0 && forall i :: 0 <= i < |w| ==> w[i] != ' '
    ensures CapitalizedAs(" " + w, " " + [ToUpper(w[0])] + w[1..])
  {
    var t, r := " " + w, " " + [ToUpper(w[0])] + w[1..];
    forall i | 0 < i < |t|
      ensures r[i] == (if t[i - 1] == ' ' then ToUpper(t[i]) else t[i])
    {
      if i >= 2 {
        assert t[i - 1] == w[i - 2] && r[i] == w[i - 1] == t[i];
      }
    }
  }

  /** The camel-case example, word by word. */
  lemma DocCamelCaseWords()
    ensures "The" + "Swift" + "Programming" + "Language" == "TheSwiftProgrammingLanguage"
  {
  }

  /** Its title, word by word. */
  lemma DocCamelCaseTitleWords()
    ensures ['T'] + ("he" + " Swift" + " Programming" + " Language") == "The Swift Programming Language"
    ensures "The" + " Swift" + " Programming" + " Language" == "The Swift Programming Language"
  {
  }

  /** The first word of the camel-case example has no capital after its first letter. */
  lemma TheUnspaced()
    ensures SpaceCapitalsFrom("The", 1) == "he"
  {
    NoCapitalsUnspaced("The", 1);
  }

  lemma SwiftSpaced()
    ensures SpaceCapitalsFrom("Swift", 0) == " Swift"
  {
    CapitalWordSpaced("Swift");
  }

  lemma ProgrammingSpaced()
    ensures SpaceCapitalsFrom("Programming", 0) == " Programming"
  {
    CapitalWordSpaced("Programming");
  }

  lemma LanguageSpaced()
    ensures SpaceCapitalsFrom("Language", 0) == " Language"
  {
    CapitalWordSpaced("Language");
  }

  /** The spacing pass puts a space in front of each word of the camel-case example but the first. */
  lemma SpacingDocCamelCase()
    ensures SpaceCapitalsFrom("The" + "Swift" + "Programming" + "Language", 1)
            == "he" + " Swift" + " Programming" + " Language"
  {
    SpaceCapitalsAppend("The" + "Swift" + "Programming", "Language", 1);
    SpaceCapitalsAppend("The" + "Swift", "Programming", 1);
    SpaceCapitalsAppend("The", "Swift", 1);
    TheUnspaced();
    SwiftSpaced();
    ProgrammingSpaced();
    LanguageSpaced();
  }

  /** Each word of "The Swift Programming Language" already starts with a capital. */
  lemma DocCamelCaseWordsCapitalized()
    ensures CapitalizedAs("The", "The")
    ensures CapitalizedAs(" Swift", " Swift")
    ensures CapitalizedAs(" Programming", " Programming")
    ensures CapitalizedAs(" Language", " Language")
  {
    FirstWordCapitalized("The");
    assert [ToUpper('T')] + "The"[1..] == "The";
    SpacedWordCapitalized("Swift");
    assert " " + [ToUpper('S')] + "Swift"[1..] == " " + "Swift" == " Swift";
    SpacedWordCapitalized("Programming");
    assert " " + [ToUpper('P')] + "Programming"[1..] == " " + "Programming" == " Programming";
    SpacedWordCapitalized("Language");
    assert " " + [ToUpper('L')] + "Language"[1..] == " " + "Language" == " Language";
  }

  /** So the capitalising pass leaves the spaced camel-case example as it is. */
  lemma CapitalizingDocCamelCase()
    ensures CapitalizeFrom("The Swift Programming Language", 0, ' ') == "The Swift Programming Language"
  {
    DocCamelCaseWordsCapitalized();
    DocCamelCaseTitleWords();
    CapitalizedAppend("The", "The", " Swift", " Swift");
    CapitalizedAppend("The" + " Swift", "The" + " Swift", " Programming", " Programming");
    CapitalizedAppend("The" + " Swift" + " Programming", "The" + " Swift" + " Programming", " Language", " Language");
    CapitalizeIsCapitalizedAs("The Swift Programming Language", "The Swift Programming Language");
  }

  /** The documented camel-case example: words are split apart at their capitals. */
  lemma TitlecasesDocCamelCase()
    ensures Titlecased("TheSwiftProgrammingLanguage") == "The Swift Programming Language"
  {
    DocCamelCaseWords();
    DocCamelCaseTitleWords();
    SpacingDocCamelCase();
    var s := "The" + "Swift" + "Programming" + "Language";
    assert Titlecased(s) == CapitalizeFrom(['T'] + SpaceCapitalsFrom(s, 1), 0, ' ');
    CapitalizingDocCamelCase();
  }

  /** Text with no capital after its first character comes through the spacing step unchanged. */
  lemma LowerTextUnspaced(s: string)
    requires |s| >= 1
    requires forall i :: 1 <= i < |s| ==> !IsCapital(s[i])
    ensures [s[0]] + SpaceCapitalsFrom(s, 1) == s
  {
    assert [s[0]] + s[1..] == s;
    NoCapitalsUnspaced(s, 1);
  }

  /** Text with no capital after its first character is only capitalised, never spaced. */
  lemma LowerTextOnlyCapitalized(s: string)
    requires IsAscii(s) && |s| >= 2
    requires forall i :: 1 <= i < |s| ==> !IsCapital(s[i])
    ensures Titlecased(s) == CapitalizeFrom(s, 0, ' ')
  {
    LowerTextUnspaced(s);
  }

  /**
    Without a capital after the first character no space is added: every
    space stays where it was, no other character becomes one, and only
    letter case changes.
   */
  lemma KeepsSpacesWithoutCapitals(s: string)
    requires IsAscii(s)
    requires forall i :: 1 <= i < |s| ==> !IsCapital(s[i])
    ensures |Titlecased(s)| == |s|
    ensures forall i :: 0 <= i < |s| ==> (Titlecased(s)[i] == ' ' <==> s[i] == ' ')
    ensures forall i :: 0 <= i < |s| ==> ToUpper(Titlecased(s)[i]) == ToUpper(s[i])
  {
    var r := Titlecased(s);
    if |s| >= 2 {
      LowerTextOnlyCapitalized(s);
      CapitalizeChangesOnlyCase(s);
    }
    forall i | 0 <= i < |s|
      ensures (r[i] == ' ' <==> s[i] == ' ') && ToUpper(r[i]) == ToUpper(s[i])
    {
      assert ToUpper(r[i]) == ToUpper(s[i]);
    }
  }

  /** The documented sentence and its title, word by word. */
  lemma DocSentenceWords()
    ensures "we're" + " having" + " dinner" + " in" + " the" + " garden" == "we're having dinner in the garden"
    ensures "We're" + " Having" + " Dinner" + " In" + " The" + " Garden" == "We're Having Dinner In The Garden"
  {
  }

  /** The first three words of the sentence get their capitals. */
  lemma DocSentenceHeadCapitalized()
    ensures CapitalizedAs("we're", "We're")
    ensures CapitalizedAs(" having", " Having")
    ensures CapitalizedAs(" dinner", " Dinner")
  {
    FirstWordCapitalized("we're");
    assert [ToUpper('w')] + "we're"[1..] == "We're";
    SpacedWordCapitalized("having");
    assert " " + "having" == " having" && " " + [ToUpper('h')] + "having"[1..] == " Having";
    SpacedWordCapitalized("dinner");
    assert " " + "dinner" == " dinner" && " " + [ToUpper('d')] + "dinner"[1..] == " Dinner";
  }

  /** So do the last three. */
  lemma DocSentenceTailCapitalized()
    ensures CapitalizedAs(" in", " In")
    ensures CapitalizedAs(" the", " The")
    ensures CapitalizedAs(" garden", " Garden")
  {
    SpacedWordCapitalized("in");
    assert " " + "in" == " in" && " " + [ToUpper('i')] + "in"[1..] == " In";
    SpacedWordCapitalized("the");
    assert " " + "the" == " the" && " " + [ToUpper('t')] + "the"[1..] == " The";
    SpacedWordCapitalized("garden");
    assert " " + "garden" == " garden" && " " + [ToUpper('g')] + "garden"[1..] == " Garden";
  }

  /** The capitalising pass upper-cases the first letter of every word of the sentence. */
  lemma CapitalizingDocSentence()
    ensures CapitalizeFrom("we're having dinner in the garden", 0, ' ') == "We're Having Dinner In The Garden"
  {
    DocSentenceWords();
    DocSentenceHeadCapitalized();
    DocSentenceTailCapitalized();
    var t1, r1 := "we're" + " having", "We're" + " Having";
    CapitalizedAppend("we're", "We're", " having", " Having");
    var t2, r2 := t1 + " dinner", r1 + " Dinner";
    CapitalizedAppend(t1, r1, " dinner", " Dinner");
    var t3, r3 := t2 + " in", r2 + " In";
    CapitalizedAppend(t2, r2, " in", " In");
    var t4, r4 := t3 + " the", r3 + " The";
    CapitalizedAppend(t3, r3, " the", " The");
    CapitalizedAppend(t4, r4, " garden", " Garden");
    CapitalizeIsCapitalizedAs(t4 + " garden", r4 + " Garden");
  }

  /** The documented sentence: every word starts with a capital, and nothing is split. */
  lemma TitlecasesDocSentence()
    ensures Titlecased("we're having dinner in the garden") == "We're Having Dinner In The Garden"
  {
    LowerTextOnlyCapitalized("we're having dinner in the garden");
    CapitalizingDocSentence();
  }
}

=== FILE: wrappers.dfy ===
/** Optional values, standing in for Swift's `nil`-able results. */
module Wrappers {

  datatype Option<+T> = None | Some(value: T)

}
